=== FILE: README.md ===
# wheel-js: slice layout and winner resolution

A decision wheel turns an ordered list of choice texts into coloured angular
slices. It then decides which slice sits under an indicator fixed at 0 degrees
once the wheel has turned by some rotation. This project models that core in
Dafny and proves properties of it. Angles are exact reals. JavaScript's
truncated `%` is written out as `Angles.Rem360`.

The logic exists in three copies, and each has its own module:

- **The library slice builder** (`src/utils/wheelUtils.js`, module `Builder`).
  - `prepareWheelData` gives every choice a palette colour (`Palette`). Below
    six choices every choice is shown twice; a lone choice is shown once.
  - `generateWheelSlices` lays out slices of equal width. It places each
    duplicate at `(cursor + 180) % 360`.
  - `calculateWheelSlices` repairs missing colours and sorts the slices by
    normalised start angle.
  - The central result is `Builder.CalculateWheelSlicesIsTiled`. For every
    choice list, the sorted output equals a closed-form reference wheel: slice
    k starts at k·360/m and shows choice k mod n. Module `Layout` derives the
    promised invariants from it: tiling, angle sum, the half-turn duplicates
    and the concrete wheels.
- **The library's live-display resolver** (`calculateRotatedSlicePositions`
  and `calculateRotatedSliceAtIndicator`, module `Display`). It moves slice
  starts to `rotate + rotation` and returns the first flagged slice.
- **The test suite's resolver** (`src/__tests__/utils/testUtils.js`, module
  `Resolver`). It moves starts to `rotate - rotation`, applies a boundary rule,
  returns the first match and falls back to slice 0. Module `Winner` proves
  two things on every wheel the library builds: exactly one slice holds the
  indicator, and the checks of `verifyResult` always pass.
- **The standalone script `wheel.js`** (module `Legacy`). Its generator leaves
  the duplicate at `cursor + 180` unreduced, and its slices are not sorted.
  `calculateSpinResult` reads the winner off that unsorted list by floor
  division.
  - The script's wheel holds the same slices as the library's.
  - For one choice, or six and more, its spin answer is the right one.
  - For two to five choices it answers the wrong choice (see Findings).

Choice texts (`Choices`) cover several pieces:

- JavaScript's `trim`, modelled exactly on the ECMAScript whitespace and line
  terminator code points;
- lower-casing;
- both `createChoice` constructors;
- the case-insensitive duplicate check `isDuplicateChoice`.

## Model

| member | source | states |
|---|---|---|
| `Angles.Rem360` | src/__tests__/utils/testUtils.js:11 | `x % 360` keeps the sign of x, has magnitude below 360, and is x itself when x already lies in (-360, 360) |
| `Angles.Wrap` | src/__tests__/utils/testUtils.js:11-12 | the inline normalisation lands in [0, 360), leaves angles in [0, 360) alone and adds one turn to angles in [-360, 0) |
| `Angles.NormAngle` | src/utils/wheelUtils.js:236-237 | `((x % 360) + 360) % 360` lies in [0, 360) and fixes angles already there |
| `Angles.WrapIsNormAngle` | src/utils/wheelUtils.js:236-237 | the two normalisations in the source (add 360 when negative, and add 360 then reduce again) agree on every angle |
| `Angles.NormAngleFullTurns` | src/__tests__/utils/testUtils.js:11-12 | adding any whole number of turns, negative ones included, leaves the normalised angle unchanged |
| `Angles.NormAngleIdempotent` | src/utils/wheelUtils.js:236-237 | normalising an already normalised angle changes nothing |
| `Angles.NormAngleOfDifference` | src/__tests__/utils/testUtils.js:26-27 | normalising the rotation before subtracting it from, or adding it to, a start angle gives the same normalised result as not doing so |
| `Palette.ColorFrom` | src/utils/wheelUtils.js:25-41 | the general colour picker always returns a non-empty colour: either the default or a palette entry. An empty palette gives the default, and a non-empty entry at index max(0, i) mod length is returned as is |
| `Palette.GetValidColor` | src/utils/wheelUtils.js:25-41 | the colour is always a palette entry; a negative index gives the first colour and an index inside the palette gives that entry |
| `Palette.GetValidColorIsColorFrom` | wheel.js:49-65 | on the shipped twelve-colour palette the full algorithm, fallbacks included, computes the direct lookup `COLORS[max(0, i) mod 12]` |
| `Palette.GetValidColorPeriodic` | src/utils/wheelUtils.js:36-37 | colours repeat with the palette's period, and colour i is `COLORS[i mod 12]` |
| `Palette.PaletteEntriesAreValid` | src/utils/constants.js:2-6 | no palette entry is empty or the text "undefined", so the builder's colour repair never replaces one |
| `Choices.Trim` | src/utils/wheelUtils.js:13 | the trimmed text is a contiguous piece of the input; only whitespace lies outside it on either side, and it neither starts nor ends with whitespace |
| `Choices.TrimIdempotent` | src/utils/wheelUtils.js:98 | trimming twice is trimming once |
| `Choices.TrimEmptyIffBlank` | src/utils/wheelUtils.js:11 | trimming leaves the empty text exactly when the text consists of whitespace only |
| `Choices.Lower` | src/utils/wheelUtils.js:13-16 | lower-casing keeps the length, leaves no ASCII capital, and changes the text only in letter case |
| `Choices.LowerChar` | src/utils/wheelUtils.js:13 | a capital letter becomes its own small letter, 32 code points on; every other character is kept |
| `Choices.LowerEqualIff` | src/utils/wheelUtils.js:13-16 | two texts lower-case to the same text if and only if they differ at most in ASCII letter case |
| `Choices.LowerIdempotent` | src/utils/wheelUtils.js:13-16 | lower-casing twice is lower-casing once |
| `Choices.CreateChoice` | src/utils/wheelUtils.js:96-101 | a new choice carries the trimmed text, which is never longer than the input |
| `Choices.IsDuplicateChoice` | src/utils/wheelUtils.js:10-18 | blank text is never a duplicate; otherwise the text is a duplicate if and only if some entry other than the excluded index lower-cases to the trimmed, lower-cased text |
| `Choices.ExcludedEntryIgnored` | src/utils/wheelUtils.js:14-17 | replacing the entry at the excluded index by anything does not change the answer |
| `Choices.ExistingTextIsDuplicate` | src/utils/wheelUtils.js:13-17 | retyping an existing entry's text, in any letter case and with surrounding whitespace, is reported as a duplicate unless that entry is excluded |
| `Choices.DuplicateIgnoresCase` | src/utils/wheelUtils.js:11-17 | two texts whose trimmed forms differ only in ASCII letter case get the same answer from the duplicate check |
| `Builder.PrepareWheelData` | src/utils/wheelUtils.js:108-138 | one item per choice with its text and colour `getValidColor(i)`. A lone choice occurs once in the first colour, two to five choices occur twice each, and six or more occur once each |
| `Builder.GenerateFrom` | src/utils/wheelUtils.js:156-192 | every generated slice has the common width, and when every item asks for one or two slices, exactly the requested number is emitted |
| `Builder.GenerateWheelSlices` | src/utils/wheelUtils.js:145-195 | the generator emits the sum of the occurrences, each slice `360 / total` wide |
| `Builder.GenerateSingleAt` | src/utils/wheelUtils.js:161-170 | with single occurrences, item i becomes slice i, starting at the cursor reached after i advances |
| `Builder.GeneratePairAt` | src/utils/wheelUtils.js:171-191 | with double occurrences, item i becomes slices 2i and 2i+1 with the same text and colour: the original at the cursor, and the duplicate at `(cursor + 180) % 360` |
| `Builder.ManyGeneratedAt` | src/utils/wheelUtils.js:160-170 | for six or more choices, choice k's slice starts at k·360/n in colour k |
| `Builder.FewGeneratedAt` | src/utils/wheelUtils.js:171-191 | for two to five choices, choice i's original starts at i·360/2n and its duplicate at (n+i)·360/2n, which is the reduced `i·360/2n + 180` |
| `Builder.GeneratedFewIsInterleaved` | src/utils/wheelUtils.js:160-192 | before the sort, the slices for two to five choices alternate between reference slice i and its duplicate, reference slice n+i |
| `Builder.FixColor` | src/utils/wheelUtils.js:210-218 | the repaired colour is neither empty nor "undefined", and a valid colour is kept unchanged |
| `Builder.FixColors` | src/utils/wheelUtils.js:209-219 | the repair changes each slice's colour and nothing else |
| `Builder.FixColorsKeepsPalette` | src/utils/wheelUtils.js:209-219 | on palette colours the repair is the identity |
| `Builder.InsertByAngle` | src/utils/wheelUtils.js:234-239 | one insertion step keeps the list sorted by normalised angle and adds exactly the inserted slice |
| `Builder.SortByAngle` | src/utils/wheelUtils.js:234-239 | the comparator sort returns a permutation of its input ordered by normalised start angle |
| `Builder.SortedPermutationUnique` | src/utils/wheelUtils.js:234-239 | a sorted list with the same slices as a strictly sorted one is that list, so the sort's output is determined whatever the sort's tie handling |
| `Builder.CalculateWheelSlices` | src/utils/wheelUtils.js:202-240 | the returned wheel is a permutation of the colour-repaired generated slices, sorted by normalised start angle, and empty for no choices |
| `Builder.TiledWheelStrictlySorted` | src/utils/wheelUtils.js:234-239 | the reference wheel's start angles strictly increase, so no two slices tie in the sort |
| `Builder.CalculateWheelSlicesIsTiled` | src/utils/wheelUtils.js:202-240 | for every choice list the builder returns the reference wheel. It has m = SliceCount(n) slices of width 360/m, and slice k starts at k·360/m and shows choice k mod n in that choice's colour |
| `Layout.WheelSliceCount` | src/utils/wheelUtils.js:147-153 | the wheel has 1, 2n or n slices (one choice, two to five, six or more), each 360/m wide |
| `Layout.WheelAnglesSumToFullTurn` | src/utils/wheelUtils.js:225-231 | for a non-empty choice list the slice widths add up to exactly 360, so the angle check never warns |
| `Layout.WheelTilesCircle` | src/utils/wheelUtils.js:233-239 | the sorted wheel starts at 0, each slice starts where the previous one ends, and the last one ends at 360 |
| `Layout.WheelSliceShowsChoice` | src/utils/wheelUtils.js:127-137 | slice k shows choice k mod n in that choice's palette colour |
| `Layout.WheelShowsEveryChoice` | src/utils/wheelUtils.js:127-137 | every choice appears on the wheel: choice i is shown by slice i in colour i |
| `Layout.DuplicatesAreOpposite` | src/utils/wheelUtils.js:181-187 | below six choices, choice i is shown by slices i and n+i with the same text and colour, exactly 180 degrees apart |
| `Layout.HalfTurnApart` | src/utils/wheelUtils.js:185 | with slices 360/2n wide, n slice widths make half a turn |
| `Layout.SingleChoiceWheel` | src/__tests__/utils/wheelUtils.test.js:38-44 | a lone choice fills the wheel with one 360-degree slice at 0 in the first colour |
| `Layout.TwoChoiceWheel` | src/__tests__/utils/wheelUtils.test.js:46-57 | two choices make exactly four quarter slices: first choice at 0, second at 90, first at 180, second at 270, in colours 0 and 1 |
| `Layout.TwoChoiceSorted` | src/__tests__/utils/wheelUtils.test.js:46-57 | the same four-slice wheel for any list of two choices |
| `Layout.EmptyWheel` | src/utils/wheelUtils.js:221-223 | no choices give no slices |
| `Resolver.RotatedStart` | src/__tests__/utils/testUtils.js:26-27 | the rotated start lies in [0, 360) and is the slice's start minus the rotation, normalised |
| `Resolver.CoversIndicator` | src/__tests__/utils/testUtils.js:32-42 | on angles in [0, 360) the boundary rule holds exactly when the end lies strictly after 0 and the arc starts at 0 or wraps past a full turn |
| `Resolver.HalfOpenRule` | src/__tests__/utils/testUtils.js:64-72 | for a start in [0, 360) and a width strictly between 0 and 360, the rule on the start and the `% 360` end is membership of 0 in the half-open arc [start, start + width) taken round the circle |
| `Resolver.MatchesAt` | src/__tests__/utils/testUtils.js:26-42 | the loop test holds, below a full turn, exactly when the slice's half-open arc moved against the rotation holds the indicator |
| `Resolver.SliceContainsZeroDegree` | src/__tests__/utils/testUtils.js:54-73 | a slice of 360 degrees or more always holds the indicator; a narrower one exactly when its rotated half-open arc holds it (see also `Resolver.ContainsZeroIsHalfOpen`) |
| `Resolver.SlicePosition` | src/__tests__/utils/testUtils.js:81-93 | the start lies in [0, 360). The end is 360 for a full slice, and the normalised start plus width, also in [0, 360), for a width in [0, 360). For a negative width the end is only reduced with `% 360`: it is start plus width while that is not negative, and at or below 0 otherwise |
| `Resolver.NegativeWidthEndBelowZero` | src/__tests__/utils/testUtils.js:81-93 | a slice at 10 degrees of width -30, unrotated, reports the arc from 10 to -20, an end outside [0, 360) |
| `Resolver.FirstMatch` | src/__tests__/utils/testUtils.js:21-43 | the scan returns the first matching position, with no match before it, or -1 when no slice matches |
| `Resolver.GetSliceAtIndicator` | src/__tests__/utils/testUtils.js:9-46 | `{'', -1}` for no slices and slice 0 for a lone slice. Otherwise it returns an index in range whose text is that slice's: the first slice that matches the normalised rotation, or slice 0 when none does |
| `Resolver.InlineSliceAtIndicator` | src/__tests__/componentIntegration.test.js:11-48 | the component's inline loop returns the same index as the test suite's resolver for every slice list and rotation |
| `Resolver.SlicePositionAgrees` | src/__tests__/utils/testUtils.js:54-93 | the reported arc does not move under whole turns, and below a full turn the boundary rule on its two ends is `sliceContainsZeroDegree` |
| `Resolver.PrepareWheelSlices` | src/__tests__/utils/testUtils.js:147-150 | the wheel built from raw texts has SliceCount(n) slices |
| `Resolver.ResolverFullTurns` | src/__tests__/utils/testUtils.js:11-12 | adding any whole number of turns to the rotation does not change the resolver's answer |
| `Resolver.ResolverNormalises` | src/__tests__/utils/testUtils.js:11-12 | any rotation, negative ones included, gives the answer of its equivalent in [0, 360) |
| `Resolver.ContainsZeroNormalises` | src/__tests__/utils/testUtils.js:60-61 | `sliceContainsZeroDegree` depends on the rotation only modulo 360 |
| `Resolver.MatchIsContainment` | src/__tests__/utils/testUtils.js:54-73 | below a full turn, the loop's test against the normalised rotation is `sliceContainsZeroDegree` against the raw rotation |
| `Resolver.ContainsZeroIsHalfOpen` | src/__tests__/utils/testUtils.js:63-72 | below a full turn, the boundary rule holds exactly when the rotated half-open arc [t, t + width) passes over 0. A slice whose rotated end falls exactly on 0 does not hold the indicator |
| `Resolver.MatchOnPlacedSlice` | src/__tests__/utils/testUtils.js:26-42 | a slice lying inside [0, 360) matches the normalised rotation u exactly when u lies in [rotate, rotate + width) |
| `Winner.TiledMatchIff` | src/__tests__/utils/testUtils.js:26-42 | on a wheel of two or more slices, slice j holds the normalised rotation if and only if j is the slice under it |
| `Winner.WheelWinner` | src/__tests__/utils/testUtils.js:21-45 | on every non-empty wheel the resolver names a slice in range. That slice contains the indicator and shows choice index mod n |
| `Winner.WheelWinnerUnique` | src/__tests__/utils/testUtils.js:21-45 | from two slices on, the answer is the slice under the normalised rotation, and no other slice contains the indicator |
| `Winner.VerifyResultHolds` | src/__tests__/utils/testUtils.js:159-167 | both checks of `verifyResult` pass for every non-empty list of texts and every rotation: the index is in range and its slice contains 0 degrees |
| `Winner.WinnerTextIsTrimmed` | src/__tests__/utils/testUtils.js:147-150 | the winning text is the trimmed form of the entered text it came from |
| `Winner.EmptyWheelHasNoWinner` | src/__tests__/utils/testUtils.js:15 | no texts give the answer `{'', -1}` at every rotation |
| `Winner.TwoChoicesAtQuarterTurn` | src/__tests__/utils/testUtils.js:32-42 | two choices turned by 90 degrees resolve to the second choice's slice 1. The first slice's rotated arc [270, 360) ends on the indicator and is not counted |
| `Display.PositionOf` | src/utils/wheelUtils.js:286-306 | a position keeps the slice's index and text. Its start is `rotate + rotation` normalised into [0, 360), and its end is start plus width reduced by `% 360`. It is flagged by the display's rule, which below a full turn means the closed arc starts at 0 or reaches 360 |
| `Display.CalculateRotatedSlicePositions` | src/utils/wheelUtils.js:263-307 | one position per slice: none for no slices, the whole circle for a lone slice, and otherwise each slice's full position (start, end and flag) at the normalised rotation, in list order |
| `Display.FirstFlagged` | src/utils/wheelUtils.js:319 | `find` returns the first flagged position, with none flagged before it, or -1 when none is flagged |
| `Display.DisplayCovers` | src/utils/wheelUtils.js:295-297 | on angles in [0, 360) a position is flagged exactly when it starts at 0 and ends after it, or crosses 0 (its reduced end below its start); `Display.DisplayRuleAtSeam` compares it with the test rule |
| `Display.DisplayWinner` | src/utils/wheelUtils.js:263-322 | -1 for no slices, 0 for a lone slice, and otherwise the first slice whose position at the normalised rotation is flagged, with -1 exactly when none is |
| `Display.CalculateRotatedSliceAtIndicator` | src/utils/wheelUtils.js:314-322 | -1 for no positions or none flagged; otherwise the index field of the first flagged position |
| `Display.DisplayEmptyAndSingle` | src/utils/wheelUtils.js:264-276 | no slices give -1 and a lone slice gives 0 at every rotation |
| `Display.DisplayFullTurns` | src/utils/wheelUtils.js:279-280 | adding whole turns to the rotation does not change the display's answer |
| `Display.StartsMirror` | src/utils/wheelUtils.js:289-290 | the display's rotated start at rotation θ is the test resolver's rotated start at -θ |
| `Display.DisplayRuleAtSeam` | src/utils/wheelUtils.js:295-297 | the display's rule accepts everything the test rule accepts. It accepts more exactly when the rotated end is 0 and the start is not |
| `Display.DisplayFlagIsClosedAtEnd` | src/utils/wheelUtils.js:289-297 | below a full turn, a slice is flagged exactly when its rotated arc starts at 0 or reaches 360, with the far end included |
| `Display.DisplayAgainstTest` | src/utils/wheelUtils.js:263-322 | on every library wheel of two or more slices, the display at θ answers what the test resolver answers at -θ. The one exception is an indicator exactly on the boundary before that slice: there the display answers the slice before |
| `Display.DisplayWinnerInRange` | src/utils/wheelUtils.js:314-322 | on every library wheel the display names a real slice and never returns -1 |
| `Display.TwoChoicesDisagreeAtQuarterTurn` | src/utils/wheelUtils.js:295-297 | on the two-choice wheel at rotation 90 the display answers slice 2, while the test resolver answers slice 1 |
| `Legacy.CreateLegacyChoice` | wheel.js:258-264 | the script's choice holds the trimmed text, is not being edited, and preloads the edit box with the same text |
| `Legacy.CreateLegacyChoiceIdempotent` | wheel.js:258-264 | re-creating a choice from its own text gives the same choice |
| `Legacy.LegacyGenerateFrom` | wheel.js:172-204 | every slice the script generates has the common width, and there are as many slices as the items ask for when each asks for one or two |
| `Legacy.LegacyGenerateWheelSlices` | wheel.js:157-207 | as many slices as the items request, each `360 / total` wide, and the library's slices exactly when no item is duplicated |
| `Legacy.LegacyCalculateWheelSlices` | wheel.js:214-236 | the script's wheel is exactly the colour-repaired list the library generates before its sort |
| `Legacy.PairsAgree` | wheel.js:193-198 | while every original lies below 180 degrees, the unreduced `cursor + 180` equals the library's reduced duplicate |
| `Legacy.LegacyGenerationIsLibraryGeneration` | wheel.js:157-207 | for every choice list, the script's generator emits exactly the slices the library's generator emits, despite the missing `% 360` |
| `Legacy.LegacySameSlicesAsLibrary` | wheel.js:214-236 | the script's wheel is a permutation of the library's wheel |
| `Legacy.LegacyIsLibraryWhenUnduplicated` | wheel.js:214-236 | for one choice, or six and more, the script's unsorted wheel equals the library's sorted wheel |
| `Legacy.LegacyFewIsInterleaved` | wheel.js:172-206 | for two to five choices the script's list alternates sorted slice i and its duplicate n+i |
| `Legacy.SpinAngle` | wheel.js:282-287 | `(360 - rotation % 360) % 360` is the opposite rotation normalised into [0, 360) |
| `Legacy.TruncRem` | wheel.js:293 | JavaScript's truncating `%`: below n in magnitude, Euclid's remainder for a non-negative dividend, and for a negative one at most 0, with 0 exactly on multiples |
| `Legacy.SpinIndex` | wheel.js:280-293 | the script's index lies strictly between -length and length; a positive width gives `floor(angle / width) mod length` and a negative one an index of 0 or below |
| `Legacy.SpinPick` | wheel.js:280-293 | the picked position is in range: 0 for one slice, `floor(angle / sliceAngle) mod length` for a positive width, and 0 for a negative one |
| `Legacy.CalculateSpinResult` | wheel.js:272-295 | the empty text for no slices, the only slice's text for one slice, and otherwise the text of the picked slice |
| `Legacy.SpinFullTurns` | wheel.js:282-287 | adding whole turns to the rotation keeps the spin defined and does not change its result |
| `Legacy.LoneSliceSpin` | wheel.js:273-294 | a lone slice of any non-zero width, negative included, always answers its own text |
| `Legacy.WholeTurnSpin` | wheel.js:280-294 | at a whole-turn rotation any non-zero first width answers the first slice's text |
| `Legacy.NegativeWidthSpin` | wheel.js:280-294 | with a negative first width the script answers exactly when the floor of angle over width is a multiple of the length, and then answers the first slice |
| `Legacy.ZeroWidthUndefined` | wheel.js:283-293 | a zero first width never gives a text |
| `Legacy.NegativeWidthCanFail` | wheel.js:280-294 | two slices whose first width is -90, at rotation 270, give a negative index and no text |
| `Legacy.PositiveWidthDefined` | wheel.js:283-293 | a positive first width always gives a valid index |
| `Legacy.WheelSpinDefined` | wheel.js:276-290 | every wheel the builder returns is, at every rotation, an input on which the spin result is defined |
| `Legacy.LegacySpinWhenUnduplicated` | wheel.js:272-295 | for one choice, or six and more, the script's answer is the corrected answer |
| `Legacy.LegacySpinMisreadsTwoChoices` | wheel.js:272-295 | two choices at rotation 270: the script answers the first choice, while the indicator is over the second choice's slice |
| `Legacy.LegacySpinOnFewChoices` | wheel.js:272-295 | for two to five choices the script answers choice k/2, where k is the sorted slice under the indicator |
| `Legacy.CalculateSpinResultSorted` | wheel.js:272-295 | the corrected spin, which reads the sorted wheel, answers what the test resolver answers at the opposite rotation |
| `Legacy.SortedSpinIsTestAnswer` | wheel.js:280-294 | on the sorted wheel, the picked slice is the test resolver's answer at the opposite rotation, and its unrotated arc holds the angle under the indicator |
| `Legacy.SortedTwoChoicesAtThreeQuarterTurn` | wheel.js:272-295 | two choices at rotation 270: the corrected spin answers the second choice |
| `Legacy.SortedSpinOnChoices` | wheel.js:272-295 | for every non-empty choice list the corrected spin answers choice k mod n, where k is the slice under the indicator |

## Left out

- Rendering is not modelled: the React components, the DOM and SVG code of
  `wheel.js`, `createSectorPath`, `toRadians`, `calculateTextRotation` and
  the event handlers. They are geometry and plumbing with no
  winner-resolution content.
- Nondeterminism and time are not modelled: the random spin amount, the
  timers and the animation. The rotation is a parameter of every resolver.
- `Choices.CreateChoice`: the library's generated `Date.now`/`Math.random` id
  is not modelled, because a choice is read only by its text.
- `Choices.Lower`: lower-cases ASCII letters only. Unicode case mapping is not
  modelled.
- Floating point is not modelled. Angles are exact reals, so `360 / 7`
  slices add up to exactly 360. The 0.001-tolerance warning of the angle-sum
  check is a log line and is left out. `Layout.WheelAnglesSumToFullTurn`
  states that the sum is exact.
- The colour-repair branch's `typeof` test is left out: every colour is
  a string in this model.
- `Legacy.CalculateSpinResult`: requires `Legacy.SpinDefined`, which excludes
  exactly the inputs on which the script reads `.text` of `undefined`: a
  zero first width (other than a lone full slice), and a negative first width
  whose index `floor(angle / width) % length` is negative, which needs two or
  more slices and an angle under the indicator above 0
  (`Legacy.ZeroWidthUndefined`, `Legacy.NegativeWidthSpin`,
  `Legacy.NegativeWidthCanFail`). A lone slice of negative width, or a
  negative width at a whole-turn rotation, reads slice 0 through JavaScript's
  -0 and is modelled (`Legacy.LoneSliceSpin`, `Legacy.WholeTurnSpin`). No
  builder produces an excluded list (`Legacy.WheelSpinDefined`,
  `Legacy.LegacySpinWhenUnduplicated`, `Legacy.LegacySpinOnFewChoices`).
- `getValidColor` and `prepareWheelData` have identical bodies in `wheel.js`
  and `src/utils/wheelUtils.js`, so each has one definition
  (`Palette.GetValidColor`, `Builder.PrepareWheelData`) used by both.
- `Palette.GetValidColor`: written as the direct lookup on the shipped
  palette. `Palette.GetValidColorIsColorFrom` proves it equal to the full
  algorithm with its fallbacks (`Palette.ColorFrom`). JavaScript's NaN and
  non-number indices are not modelled, since the index is an integer.
- Boundary rule: the test resolver's rule for a slice crossing 0 is modelled
  as the code writes it, `0 >= start \|\| 0 < end`. A slice whose rotated end
  is exactly 0 therefore does not hold the indicator. The two-choice wheel at
  rotation 90 resolves to slice 1, not slice 0
  (`Winner.TwoChoicesAtQuarterTurn`). Only the display resolver accepts every
  crossing slice (`Display.DisplayRuleAtSeam`).
- The slice-count expectations of `src/__tests__/deterministicRotation.test.js`
  assume duplication only below three choices. They disagree with the code's
  six-choice threshold and are not modelled.
- The `calculateSpinResult` import in `src/components/WheelSpinner.js` names
  a function `src/utils/wheelUtils.js` does not export. It is not modelled.
- URL and JSON initialisation, editing, adding and deleting choices in
  `wheel.js` are state plumbing around the modelled functions, so they are
  left out.

## Findings

| source | as written | input that shows it | evidently intended | confidence | as-written member | corrected member |
|---|---|---|---|---|---|---|
| wheel.js:272-295 | `calculateSpinResult` computes the angle under the indicator and indexes `slices` by `floor(angle / sliceAngle)`. `calculateWheelSlices` (wheel.js:214-236) returns the slices unsorted, and below six choices each original is followed by its duplicate | choices `["X", "Y"]` at rotation 270: the indicator is over angle 90, inside Y's slice [90, 180). Position 1 of the unsorted list is X's duplicate at [180, 270), so the result is X | read the slice at that position on the angle-sorted wheel, as the library does, which answers Y | not executed | `Legacy.LegacySpinMisreadsTwoChoices`, `Legacy.LegacySpinOnFewChoices` | `Legacy.CalculateSpinResultSorted`, `Legacy.SortedSpinOnChoices` |

=== FILE: angles.dfy ===
/** Angle arithmetic on exact reals, written the way the wheel's JavaScript
    computes it: `%` is JavaScript's truncated remainder, whose sign follows
    the dividend, and every angle is reduced with the divisor 360. */
module Angles {

  /** Degrees in one full turn of the wheel. */
  const FullTurn: real := 360.0

  /** JavaScript's `Math.trunc` on an exact real: rounds toward zero. */
  function Trunc(x: real): (t: int)
    ensures x >= 0.0 ==> t as real <= x < t as real + 1.0
    ensures x < 0.0 ==> t as real - 1.0 < x <= t as real
  {
    if x >= 0.0 then x.Floor else -((-x).Floor)
  }

  /** JavaScript's `x % 360`: the remainder after truncated division. */
  function Rem360(x: real): (r: real)
    ensures x >= 0.0 ==> 0.0 <= r < FullTurn
    ensures x < 0.0 ==> -FullTurn < r <= 0.0
    ensures 0.0 <= x < FullTurn ==> r == x
    ensures -FullTurn < x <= 0.0 ==> r == x
    ensures FullTurn <= x < 2.0 * FullTurn ==> r == x - FullTurn
  {
    x - FullTurn * Trunc(x / FullTurn) as real
  }

  /** The opposite of a rotation by x: the wheel angle that the rotation
      brings under an indicator fixed at 0 degrees. It is plain negation,
      given a name so that the resolvers' two sign conventions read apart
      and so that the solver treats the negated rotation as one term, which
      keeps the proofs about whole turns short and stable. */
  function Opposite(x: real): real
  {
    -x
  }

  /** The source's inline normalisation: `v = x % 360; if (v < 0) v += 360`. */
  function Wrap(x: real): (r: real)
    ensures 0.0 <= r < FullTurn
    ensures 0.0 <= x < FullTurn ==> r == x
    ensures -FullTurn <= x < 0.0 ==> r == x + FullTurn
  {
    var v := Rem360(x);
    if v < 0.0 then v + FullTurn else v
  }

  /** The source's expression `((x % 360) + 360) % 360`. */
  function NormAngle(x: real): (r: real)
    ensures 0.0 <= r < FullTurn
    ensures 0.0 <= x < FullTurn ==> r == x
  {
    Rem360(Rem360(x) + FullTurn)
  }

  /** Both normalisations written in the source compute the same angle. */
  lemma WrapIsNormAngle(x: real)
    ensures Wrap(x) == NormAngle(x)
  {
    var v := Rem360(x);
    if v < 0.0 {
      assert Rem360(v + FullTurn) == v + FullTurn;
    } else {
      assert Rem360(v + FullTurn) == v;
    }
  }

  /** The normalised angle is x minus a whole number of turns, and it is the
      only such value in [0, 360). */
  lemma NormAngleIsFloorMod(x: real)
    ensures NormAngle(x) == x - FullTurn * (x / FullTurn).Floor as real
  {
    var f := (x / FullTurn).Floor;
    var t := Trunc(x / FullTurn);
    var v := Rem360(x);
    assert v == x - FullTurn * t as real;
    if v < 0.0 {
      assert NormAngle(x) == v + FullTurn;
      assert t - 1 == f;
    } else {
      assert NormAngle(x) == v;
      assert t == f;
    }
  }

  /** Any value in [0, 360) that differs from x by whole turns is NormAngle(x). */
  lemma NormAngleUnique(x: real, y: real, k: int)
    requires 0.0 <= y < FullTurn
    requires x == y + FullTurn * k as real
    ensures NormAngle(x) == y
  {
    NormAngleIsFloorMod(x);
    var f := (x / FullTurn).Floor;
    assert x / FullTurn == y / FullTurn + k as real;
    assert f == k;
  }

  /** Adding whole turns does not change the normalised angle. */
  lemma NormAngleFullTurns(x: real, k: int)
    ensures NormAngle(x + FullTurn * k as real) == NormAngle(x)
  {
    NormAngleIsFloorMod(x);
    var f := (x / FullTurn).Floor;
    NormAngleUnique(x + FullTurn * k as real, NormAngle(x), f + k);
  }

  /** Normalising twice is normalising once. */
  lemma NormAngleIdempotent(x: real)
    ensures NormAngle(NormAngle(x)) == NormAngle(x)
  {
  }

  /** Normalising an operand first does not change the normalised difference. */
  lemma NormAngleOfDifference(a: real, b: real)
    ensures NormAngle(a - NormAngle(b)) == NormAngle(a - b)
    ensures NormAngle(a + NormAngle(b)) == NormAngle(a + b)
  {
    NormAngleIsFloorMod(b);
    var f := (b / FullTurn).Floor;
    assert a - NormAngle(b) == (a - b) + FullTurn * f as real;
    NormAngleFullTurns(a - b, f);
    assert a + NormAngle(b) == (a + b) + FullTurn * (-f) as real;
    NormAngleFullTurns(a + b, -f);
  }
}

=== FILE: builder.dfy ===
/** The library's slice builder (`src/utils/wheelUtils.js`): choices become
    wheel items with a colour and an occurrence count, items become uniform
    angular slices (each duplicate placed 180 degrees from its original), and
    the slices are returned sorted by their normalised start angle. */
module Builder {
  import opened Angles
  import opened Palette
  import opened Choices
  import opened Sequences

  /** Below this many choices every choice is shown twice. */
  const MIN_CHOICES_FOR_SINGLE_SLICES: nat := 6

  /** One choice prepared for layout. */
  datatype WheelItem = WheelItem(text: string, color: string, occurrences: nat)

  /** One angular sector of the unrotated wheel: it starts at `rotate` degrees
      and is `sliceAngle` degrees wide. */
  datatype Slice = Slice(text: string, color: string, rotate: real, sliceAngle: real)

  // ---------------------------------------------------------------------
  // prepareWheelData
  // ---------------------------------------------------------------------

  /** `prepareWheelData`: item i carries choice i's text and palette colour i;
      a lone choice appears once, fewer than six choices appear twice each,
      six or more appear once each. */
  function PrepareWheelData(choices: seq<Choice>): (items: seq<WheelItem>)
    ensures |items| == |choices|
    ensures forall i :: 0 <= i < |items| ==>
              items[i].text == choices[i].text && items[i].color == GetValidColor(i)
    ensures |choices| == 1 ==> items[0].occurrences == 1 && items[0].color == COLORS[0]
    ensures 2 <= |choices| < MIN_CHOICES_FOR_SINGLE_SLICES ==>
              forall i :: 0 <= i < |items| ==> items[i].occurrences == 2
    ensures |choices| >= MIN_CHOICES_FOR_SINGLE_SLICES ==>
              forall i :: 0 <= i < |items| ==> items[i].occurrences == 1
  {
    var n := |choices|;
    if n == 0 then []
    else if n == 1 then [WheelItem(choices[0].text, GetValidColor(0), 1)]
    else
      seq(n, i requires 0 <= i < n =>
        WheelItem(choices[i].text, GetValidColor(i),
                  if n < MIN_CHOICES_FOR_SINGLE_SLICES then 2 else 1))
  }

  // ---------------------------------------------------------------------
  // generateWheelSlices
  // ---------------------------------------------------------------------

  predicate OccursOnceOrTwice(items: seq<WheelItem>)
  {
    forall i :: 0 <= i < |items| ==> 1 <= items[i].occurrences <= 2
  }

  /** The `reduce` that counts the slices the items ask for. */
  function TotalOccurrences(items: seq<WheelItem>): nat
  {
    if |items| == 0 then 0 else items[0].occurrences + TotalOccurrences(items[1..])
  }

  /** `360 / totalSlices`. With no slices requested JavaScript yields
      Infinity, but then no slice is emitted and the value is never read. */
  function SliceAngleFor(total: nat): real
  {
    if total == 0 then 0.0 else FullTurn / total as real
  }

  /** The `forEach` of `generateWheelSlices`, from the running `cursor` on:
      an item with one occurrence emits one slice at the cursor; an item with
      two also emits a duplicate at `(cursor + 180) % 360`; either advances the
      cursor by one slice angle. Any other occurrence count emits nothing and
      does not advance the cursor. */
  function GenerateFrom(items: seq<WheelItem>, cursor: real, angle: real): (slices: seq<Slice>)
    ensures forall k :: 0 <= k < |slices| ==> slices[k].sliceAngle == angle
    ensures OccursOnceOrTwice(items) ==> |slices| == TotalOccurrences(items)
  {
    if |items| == 0 then []
    else
      var item := items[0];
      assert OccursOnceOrTwice(items) ==> OccursOnceOrTwice(items[1..]) by {
        if OccursOnceOrTwice(items) {
          forall i | 0 <= i < |items[1..]| ensures 1 <= items[1..][i].occurrences <= 2 {
            assert items[1..][i] == items[i + 1];
          }
        }
      }
      if item.occurrences == 1 then
        [Slice(item.text, item.color, cursor, angle)]
          + GenerateFrom(items[1..], cursor + angle, angle)
      else if item.occurrences == 2 then
        [Slice(item.text, item.color, cursor, angle),
         Slice(item.text, item.color, Rem360(cursor + 180.0), angle)]
          + GenerateFrom(items[1..], cursor + angle, angle)
      else
        GenerateFrom(items[1..], cursor, angle)
  }

  /** `generateWheelSlices`: as many slices as the items request (when each
      asks for one or two), all of the same width `360 / total`. */
  function GenerateWheelSlices(items: seq<WheelItem>): (slices: seq<Slice>)
    ensures OccursOnceOrTwice(items) ==> |slices| == TotalOccurrences(items)
    ensures forall k :: 0 <= k < |slices| ==>
              slices[k].sliceAngle == SliceAngleFor(TotalOccurrences(items))
  {
    GenerateFrom(items, 0.0, SliceAngleFor(TotalOccurrences(items)))
  }

  /** The cursor after i advances of `angle` from `cursor`, added up one
      step at a time as the source does. */
  function CursorAt(cursor: real, angle: real, i: nat): real
  {
    if i == 0 then cursor else CursorAt(cursor, angle, i - 1) + angle
  }

  lemma {:induction false} CursorShift(cursor: real, angle: real, i: nat, next: real)
    requires next == cursor + angle
    ensures CursorAt(next, angle, i) == CursorAt(cursor, angle, i + 1)
  {
    if i > 0 {
      CursorShift(cursor, angle, i - 1, next);
    }
  }

  /** Repeated addition is multiplication: after i steps the cursor has moved
      i slice angles. */
  lemma {:induction false} CursorIsMultiple(angle: real, i: nat)
    ensures CursorAt(0.0, angle, i) == i as real * angle
  {
    if i > 0 {
      CursorIsMultiple(angle, i - 1);
      assert (i - 1) as real * angle + angle == i as real * angle;
    }
  }

  /** With one occurrence per item, item i becomes slice i, at the cursor
      reached after i advances. */
  lemma {:induction false} GenerateSingleAt(items: seq<WheelItem>, cursor: real, angle: real, i: nat)
    requires forall j :: 0 <= j < |items| ==> items[j].occurrences == 1
    requires i < |items|
    ensures i < |GenerateFrom(items, cursor, angle)|
    ensures GenerateFrom(items, cursor, angle)[i]
              == Slice(items[i].text, items[i].color, CursorAt(cursor, angle, i), angle)
  {
    var rest := items[1..];
    var next := cursor + angle;
    var g := GenerateFrom(items, cursor, angle);
    var g' := GenerateFrom(rest, next, angle);
    assert g == [Slice(items[0].text, items[0].color, cursor, angle)] + g';
    if i > 0 {
      assert forall j :: 0 <= j < |rest| ==> rest[j] == items[j + 1];
      GenerateSingleAt(rest, next, angle, i - 1);
      assert rest[i - 1] == items[i];
      CursorShift(cursor, angle, i - 1, next);
      assert g[i] == g'[i - 1];
    }
  }

  /** With two occurrences per item, item i becomes slices 2i and 2i+1: the
      original at the cursor reached after i advances, and its duplicate 180
      degrees further on, reduced with JavaScript's `% 360`. */
  lemma {:induction false} GeneratePairAt(items: seq<WheelItem>, cursor: real, angle: real, i: nat)
    requires forall j :: 0 <= j < |items| ==> items[j].occurrences == 2
    requires i < |items|
    ensures 2 * i + 1 < |GenerateFrom(items, cursor, angle)|
    ensures GenerateFrom(items, cursor, angle)[2 * i]
              == Slice(items[i].text, items[i].color, CursorAt(cursor, angle, i), angle)
    ensures GenerateFrom(items, cursor, angle)[2 * i + 1]
              == Slice(items[i].text, items[i].color,
                       Rem360(CursorAt(cursor, angle, i) + 180.0), angle)
  {
    var rest := items[1..];
    var next := cursor + angle;
    var g := GenerateFrom(items, cursor, angle);
    var g' := GenerateFrom(rest, next, angle);
    GeneratePairStep(items, cursor, angle, next);
    if i > 0 {
      assert forall j :: 0 <= j < |rest| ==> rest[j] == items[j + 1];
      GeneratePairAt(rest, next, angle, i - 1);
      assert rest[i - 1] == items[i];
      CursorShift(cursor, angle, i - 1, next);
      assert g[2 * i] == g'[2 * (i - 1)];
      assert g[2 * i + 1] == g'[2 * (i - 1) + 1];
    }
  }

  /** One step of generation over an item that occurs twice. */
  lemma GeneratePairStep(items: seq<WheelItem>, cursor: real, angle: real, next: real)
    requires |items| > 0 && items[0].occurrences == 2 && next == cursor + angle
    ensures GenerateFrom(items, cursor, angle)
            == [Slice(items[0].text, items[0].color, cursor, angle),
                Slice(items[0].text, items[0].color, Rem360(cursor + 180.0), angle)]
               + GenerateFrom(items[1..], next, angle)
  {
  }

  lemma {:induction false} TotalUniform(items: seq<WheelItem>, o: nat)
    requires forall i :: 0 <= i < |items| ==> items[i].occurrences == o
    ensures TotalOccurrences(items) == o * |items|
  {
    if |items| > 0 {
      TotalUniform(items[1..], o);
    }
  }

  // ---------------------------------------------------------------------
  // calculateWheelSlices: colour fallback and sort
  // ---------------------------------------------------------------------

  /** The defensive colour check: a falsy colour or the text "undefined" is
      replaced by the default colour. */
  function FixColor(c: string): (d: string)
    ensures d != "" && d != "undefined"
    ensures c != "" && c != "undefined" ==> d == c
  {
    if IsFalsy(c) || c == "undefined" then DEFAULT_COLOR else c
  }

  function FixColors(slices: seq<Slice>): (r: seq<Slice>)
    ensures |r| == |slices|
    ensures forall k :: 0 <= k < |r| ==>
              r[k] == slices[k].(color := FixColor(slices[k].color))
  {
    seq(|slices|, k requires 0 <= k < |slices| =>
      slices[k].(color := FixColor(slices[k].color)))
  }

  /** The sort key: `((rotate % 360) + 360) % 360`. */
  function AngleKey(s: Slice): real
  {
    NormAngle(s.rotate)
  }

  ghost predicate SortedByAngle(s: seq<Slice>)
  {
    forall i, j :: 0 <= i < j < |s| ==> AngleKey(s[i]) <= AngleKey(s[j])
  }

  ghost predicate StrictlySortedByAngle(s: seq<Slice>)
  {
    forall i, j :: 0 <= i < j < |s| ==> AngleKey(s[i]) < AngleKey(s[j])
  }

  /** Inserts x into a sorted sequence before the first element whose key is
      not smaller, so that x stays ahead of equal keys (a stable step). */
  function InsertByAngle(x: Slice, s: seq<Slice>): (r: seq<Slice>)
    requires SortedByAngle(s)
    ensures |r| == |s| + 1
    ensures SortedByAngle(r)
    ensures multiset(r) == multiset(s) + multiset{x}
    ensures r[0] == x || (|s| > 0 && r[0] == s[0])
  {
    if |s| == 0 then [x]
    else if AngleKey(x) <= AngleKey(s[0]) then
      SortedHeadIsLeast(s);
      SortedCons(x, s);
      [x] + s
    else
      var t := InsertByAngle(x, s[1..]);
      assert s == [s[0]] + s[1..];
      InsertedTailAbove(x, s, t);
      SortedCons(s[0], t);
      [s[0]] + t
  }

  /** Every key of a sorted sequence is at least its first key. */
  lemma SortedHeadIsLeast(s: seq<Slice>)
    requires |s| > 0 && SortedByAngle(s)
    ensures forall j :: 0 <= j < |s| ==> AngleKey(s[0]) <= AngleKey(s[j])
  {
  }

  /** A key no larger than any key of a sorted sequence can be put in
      front of it. */
  lemma SortedCons(x: Slice, s: seq<Slice>)
    requires SortedByAngle(s) && forall j :: 0 <= j < |s| ==> AngleKey(x) <= AngleKey(s[j])
    ensures SortedByAngle([x] + s)
  {
    var r := [x] + s;
    forall i, j | 0 <= i < j < |r|
      ensures AngleKey(r[i]) <= AngleKey(r[j])
    {
      assert r[j] == s[j - 1];
      if i > 0 {
        assert r[i] == s[i - 1];
      }
    }
  }

  /** Inserting x, whose key is above the first key of a sorted s, into the
      rest of s gives only keys at least that first key. */
  lemma InsertedTailAbove(x: Slice, s: seq<Slice>, t: seq<Slice>)
    requires |s| > 0 && SortedByAngle(s) && AngleKey(s[0]) < AngleKey(x)
    requires multiset(t) == multiset(s[1..]) + multiset{x}
    ensures forall j :: 0 <= j < |t| ==> AngleKey(s[0]) <= AngleKey(t[j])
  {
    forall j | 0 <= j < |t|
      ensures AngleKey(s[0]) <= AngleKey(t[j])
    {
      assert t[j] in multiset(t);
      if t[j] != x {
        assert t[j] in multiset(s[1..]);
        var i :| 0 <= i < |s[1..]| && s[1..][i] == t[j];
        assert s[i + 1] == t[j];
      }
    }
  }

  /** The comparator sort `(a, b) => angleA - angleB`, as a stable insertion
      sort: the result is ordered by key and is a permutation of the input. */
  function SortByAngle(s: seq<Slice>): (r: seq<Slice>)
    ensures |r| == |s|
    ensures SortedByAngle(r)
    ensures multiset(r) == multiset(s)
  {
    if |s| == 0 then []
    else
      assert s == [s[0]] + s[1..];
      InsertByAngle(s[0], SortByAngle(s[1..]))
  }

  /** A sorted sequence with the same elements as a strictly sorted one is
      that sequence. */
  lemma {:induction false} SortedPermutationUnique(a: seq<Slice>, b: seq<Slice>)
    requires SortedByAngle(a) && StrictlySortedByAngle(b)
    requires multiset(a) == multiset(b)
    ensures a == b
  {
    assert |a| == |multiset(a)| == |multiset(b)| == |b|;
    if |a| > 0 {
      assert a[0] in multiset(b);
      var j :| 0 <= j < |b| && b[j] == a[0];
      assert b[0] in multiset(a);
      var i :| 0 <= i < |a| && a[i] == b[0];
      assert AngleKey(b[0]) <= AngleKey(b[j]) == AngleKey(a[0]) <= AngleKey(a[i]);
      assert j == 0;
      MultisetCons(a);
      MultisetCons(b);
      MultisetCancel(a[0], multiset(a[1..]), multiset(b[1..]));
      SortedTails(a, b);
      SortedPermutationUnique(a[1..], b[1..]);
    }
  }

  lemma SortedTails(a: seq<Slice>, b: seq<Slice>)
    requires |a| > 0 && |b| > 0 && SortedByAngle(a) && StrictlySortedByAngle(b)
    ensures SortedByAngle(a[1..]) && StrictlySortedByAngle(b[1..])
  {
    forall i, j | 0 <= i < j < |a| - 1
      ensures AngleKey(a[1..][i]) <= AngleKey(a[1..][j])
    {
      assert a[1..][i] == a[i + 1] && a[1..][j] == a[j + 1];
    }
    forall i, j | 0 <= i < j < |b| - 1
      ensures AngleKey(b[1..][i]) < AngleKey(b[1..][j])
    {
      assert b[1..][i] == b[i + 1] && b[1..][j] == b[j + 1];
    }
  }

  /** `calculateWheelSlices`: prepare, generate, repair colours, return `[]`
      when there is nothing to show, and otherwise sort by normalised start
      angle. The 360-degree sum check only logs and is not modelled. */
  function CalculateWheelSlices(choices: seq<Choice>): (r: seq<Slice>)
    ensures SortedByAngle(r)
    ensures multiset(r) == multiset(FixColors(GenerateWheelSlices(PrepareWheelData(choices))))
    ensures |choices| == 0 ==> r == []
  {
    var slices := FixColors(GenerateWheelSlices(PrepareWheelData(choices)));
    if |slices| == 0 then [] else SortByAngle(slices)
  }

  // ---------------------------------------------------------------------
  // The wheel the builder promises
  // ---------------------------------------------------------------------

  /** How many slices n choices occupy: none, one, two per choice below six
      choices, one per choice from six on. */
  function SliceCount(n: nat): nat
  {
    if n == 0 then 0
    else if n == 1 then 1
    else if n < MIN_CHOICES_FOR_SINGLE_SLICES then 2 * n
    else n
  }

  /** The choice slice k shows on a wheel of n choices and at most 2n
      slices: k mod n, which below 2n is k itself or k - n. */
  function ChoiceIndex(k: nat, n: nat): (j: nat)
    requires 0 < n && k < 2 * n
    ensures j < n
  {
    if k < n then k else k - n
  }

  lemma ChoiceIndexIsMod(k: nat, n: nat)
    requires 0 < n && k < 2 * n
    ensures ChoiceIndex(k, n) == k % n
  {
    if k >= n {
      ModPlusOnce(k - n, n);
    }
  }

  /** Slice k of a reference wheel of m slices over n choices. */
  function TiledSlice(choices: seq<Choice>, m: nat, k: nat): (s: Slice)
    requires 0 < |choices| && 0 < m && k < 2 * |choices|
  {
    var j := ChoiceIndex(k, |choices|);
    var a := FullTurn / m as real;
    Slice(choices[j].text, GetValidColor(j), k as real * a, a)
  }

  /** The reference wheel: m = SliceCount(n) slices of width 360/m, slice k
      starting at k*360/m and showing choice k mod n in that choice's colour. */
  ghost function TiledWheel(choices: seq<Choice>): (w: seq<Slice>)
    ensures |w| == SliceCount(|choices|)
  {
    var m := SliceCount(|choices|);
    if |choices| == 0 then []
    else seq(m, k requires 0 <= k < m => TiledSlice(choices, m, k))
  }

  /** Slice k of the reference wheel. */
  lemma TiledAt(choices: seq<Choice>, k: nat)
    requires k < |TiledWheel(choices)|
    ensures 0 < |choices| && k < 2 * |choices|
    ensures TiledWheel(choices)[k] == TiledSlice(choices, |TiledWheel(choices)|, k)
  {
  }

  /** Reference slice k shows choice k mod n in that choice's colour. */
  lemma TiledShowsChoice(choices: seq<Choice>, k: nat)
    requires k < |TiledWheel(choices)|
    ensures |choices| > 0
    ensures var w := TiledWheel(choices);
            w[k].text == choices[k % |choices|].text
            && w[k].color == GetValidColor(k % |choices|)
  {
    var w := TiledWheel(choices);
    ChoiceIndexIsMod(k, |choices|);
    TiledAt(choices, k);
  }

  /** A reference slice whose index falls on choice j. */
  lemma TiledSliceOf(choices: seq<Choice>, m: nat, k: nat, j: nat, a: real)
    requires 0 < |choices| && 0 < m && k < 2 * |choices| && ChoiceIndex(k, |choices|) == j
    requires a == FullTurn / m as real
    ensures TiledSlice(choices, m, k) == Slice(choices[j].text, GetValidColor(j), k as real * a, a)
  {
  }

  lemma ModPlusOnce(i: nat, n: nat)
    requires i < n
    ensures (n + i) % n == i
  {
  }

  /** The width of a slice on a wheel of 2n slices: half a turn is n widths. */
  lemma HalfWidth(n: nat, a: real)
    requires n > 0 && a == FullTurn / (2 * n) as real
    ensures a > 0.0 && a * (2 * n) as real == FullTurn && a * n as real == 180.0
  {
  }

  lemma UnitAngle(m: nat)
    requires m > 0
    ensures FullTurn / m as real > 0.0
    ensures (FullTurn / m as real) * m as real == FullTurn
  {
  }

  lemma ScaleStrict(i: int, j: int, a: real)
    requires i < j && a > 0.0
    ensures i as real * a < j as real * a
  {
    assert j as real * a - i as real * a == (j - i) as real * a;
  }

  lemma ScaleBelow(k: nat, m: nat, a: real)
    requires k < m && a > 0.0 && a * m as real == FullTurn
    ensures 0.0 <= k as real * a < FullTurn
    ensures k as real * a + a <= FullTurn
  {
    ScaleStrict(k, m, a);
    ScaleStrict(k, k + 1, a);
    if k + 1 < m { ScaleStrict(k + 1, m, a); }
    assert (k + 1) as real * a == k as real * a + a;
  }

  /** Slice k starts k slice widths past 0 and all widths are `a`. */
  ghost predicate Uniform(s: seq<Slice>, a: real)
  {
    forall k :: 0 <= k < |s| ==> s[k].rotate == k as real * a && s[k].sliceAngle == a
  }

  /** The reference wheel of m slices is a uniform tiling with width
      a = 360/m. */
  lemma TiledWheelUniform(choices: seq<Choice>, w: seq<Slice>, m: nat, a: real)
    requires |choices| > 0 && w == TiledWheel(choices) && m == |w| && a == FullTurn / m as real
    ensures m == SliceCount(|choices|) && m > 0
    ensures a > 0.0 && a * m as real == FullTurn
    ensures Uniform(w, a)
  {
    UnitAngle(m);
    forall k | 0 <= k < m
      ensures w[k].rotate == k as real * a && w[k].sliceAngle == a
    {
      TiledAt(choices, k);
      TiledSliceGeometry(choices, m, k, a, w[k]);
    }
    assert Uniform(w, a);
  }

  lemma TiledSliceGeometry(choices: seq<Choice>, m: nat, k: nat, a: real, s: Slice)
    requires 0 < |choices| && 0 < m && k < 2 * |choices| && s == TiledSlice(choices, m, k)
    requires a == FullTurn / m as real
    ensures s.rotate == k as real * a && s.sliceAngle == a
  {
  }

  lemma UniformKey(s: seq<Slice>, a: real, k: nat)
    requires a > 0.0 && a * |s| as real == FullTurn && Uniform(s, a) && k < |s|
    ensures AngleKey(s[k]) == k as real * a
  {
    ScaleBelow(k, |s|, a);
  }

  /** A uniform tiling has distinct, increasing start angles. */
  lemma UniformStrictlySorted(s: seq<Slice>, a: real)
    requires a > 0.0 && a * |s| as real == FullTurn && Uniform(s, a)
    ensures StrictlySortedByAngle(s)
  {
    forall i, j | 0 <= i < j < |s|
      ensures AngleKey(s[i]) < AngleKey(s[j])
    {
      UniformKey(s, a, i);
      UniformKey(s, a, j);
      ScaleStrict(i, j, a);
    }
  }

  /** The reference wheel's start angles are distinct and increasing. */
  lemma TiledWheelStrictlySorted(choices: seq<Choice>)
    ensures StrictlySortedByAngle(TiledWheel(choices))
  {
    if |choices| > 0 {
      var w := TiledWheel(choices);
      var a := FullTurn / |w| as real;
      TiledWheelUniform(choices, w, |w|, a);
      UniformStrictlySorted(w, a);
    }
  }

  /** Every prepared colour is a palette entry, so the fallback never fires. */
  lemma FixColorsKeepsPalette(slices: seq<Slice>)
    requires forall k :: 0 <= k < |slices| ==> slices[k].color in COLORS
    ensures FixColors(slices) == slices
  {
    forall k | 0 <= k < |slices|
      ensures FixColors(slices)[k] == slices[k]
    {
      PaletteEntriesAreValid(slices[k].color);
    }
  }

  /** The slices generated for six or more choices, before the sort. */
  lemma GeneratedManyIsTiled(choices: seq<Choice>)
    requires |choices| >= MIN_CHOICES_FOR_SINGLE_SLICES
    ensures FixColors(GenerateWheelSlices(PrepareWheelData(choices))) == TiledWheel(choices)
  {
    var g := GenerateWheelSlices(PrepareWheelData(choices));
    ManyIsTiled(choices, g, TiledWheel(choices));
    FixColorsKeepsPalette(g);
  }

  lemma ManyIsTiled(choices: seq<Choice>, g: seq<Slice>, w: seq<Slice>)
    requires |choices| >= MIN_CHOICES_FOR_SINGLE_SLICES
    requires g == GenerateWheelSlices(PrepareWheelData(choices)) && w == TiledWheel(choices)
    ensures g == w
    ensures forall k :: 0 <= k < |g| ==> g[k].color in COLORS
  {
    ManyAt(choices, 0, g, w);
    forall k | 0 <= k < |g|
      ensures g[k] == w[k] && g[k].color in COLORS
    {
      ManyAt(choices, k, g, w);
    }
  }

  /** On a wheel of six or more choices, generated slice k is reference
      slice k. */
  lemma ManyAt(choices: seq<Choice>, k: nat, g: seq<Slice>, w: seq<Slice>)
    requires |choices| >= MIN_CHOICES_FOR_SINGLE_SLICES && k < |choices|
    requires g == GenerateWheelSlices(PrepareWheelData(choices)) && w == TiledWheel(choices)
    ensures |g| == |w| == |choices|
    ensures g[k] == w[k] && g[k].color == GetValidColor(k)
  {
    var n := |choices|;
    var a := FullTurn / n as real;
    var x := k as real * a;
    ManyGeneratedAt(choices, k, a, x, g);
    ManyTiledAt(choices, k, a, x, w);
  }

  /** Generated slices, before the sort, for six or more choices: choice k
      yields slice k at x = k slice widths, in its palette colour. */
  lemma ManyGeneratedAt(choices: seq<Choice>, k: nat, a: real, x: real, g: seq<Slice>)
    requires |choices| >= MIN_CHOICES_FOR_SINGLE_SLICES && k < |choices|
    requires a == FullTurn / |choices| as real && x == k as real * a
    requires g == GenerateWheelSlices(PrepareWheelData(choices))
    ensures |g| == |choices|
    ensures g[k] == Slice(choices[k].text, GetValidColor(k), x, a)
  {
    var items := PrepareWheelData(choices);
    TotalUniform(items, 1);
    assert SliceAngleFor(TotalOccurrences(items)) == a;
    assert g == GenerateFrom(items, 0.0, a);
    GenerateSingleAt(items, 0.0, a, k);
    CursorIsMultiple(a, k);
  }

  lemma ManyTiledAt(choices: seq<Choice>, k: nat, a: real, x: real, w: seq<Slice>)
    requires |choices| >= MIN_CHOICES_FOR_SINGLE_SLICES && k < |choices|
    requires a == FullTurn / |choices| as real && x == k as real * a
    requires w == TiledWheel(choices)
    ensures |w| == |choices|
    ensures w[k] == Slice(choices[k].text, GetValidColor(k), x, a)
  {
    SmallMod(k, |choices|);
    TiledSliceOf(choices, |choices|, k, k, a);
    TiledAt(choices, k);
  }

  /** On a wheel of two to five choices, choice i's two generated slices
      are reference slices i and n + i. */
  lemma FewPairAt(choices: seq<Choice>, i: nat, g: seq<Slice>, w: seq<Slice>)
    requires 2 <= |choices| < MIN_CHOICES_FOR_SINGLE_SLICES && i < |choices|
    requires g == GenerateWheelSlices(PrepareWheelData(choices)) && w == TiledWheel(choices)
    ensures |g| == |w| == 2 * |choices|
    ensures g[2 * i] == w[i] && g[2 * i + 1] == w[|choices| + i]
    ensures g[2 * i].color == g[2 * i + 1].color == GetValidColor(i)
  {
    var n := |choices|;
    var a := FullTurn / (2 * n) as real;
    FewPairFrom(choices, i, n + i, a, i as real * a, (n + i) as real * a, g, w);
  }

  lemma FewPairFrom(choices: seq<Choice>, i: nat, k: nat, a: real, x: real, y: real, g: seq<Slice>, w: seq<Slice>)
    requires 2 <= |choices| < MIN_CHOICES_FOR_SINGLE_SLICES && i < |choices|
    requires k == |choices| + i && a == FullTurn / (2 * |choices|) as real
    requires x == i as real * a && y == k as real * a
    requires g == GenerateWheelSlices(PrepareWheelData(choices)) && w == TiledWheel(choices)
    ensures |g| == |w| == 2 * |choices|
    ensures g[2 * i] == w[i] && g[2 * i + 1] == w[k]
    ensures g[2 * i].color == g[2 * i + 1].color == GetValidColor(i)
  {
    FewGeneratedAt(choices, i, k, a, x, y, g);
    FewTiledAt(choices, i, k, a, x, y, w);
  }

  /** Generated slices, before the sort, for two to five choices: choice i
      yields slice 2i at x = i slice widths and slice 2i+1, of the same text
      and colour, at `(x + 180) % 360`, which is y = n + i slice widths. */
  lemma FewGeneratedAt(choices: seq<Choice>, i: nat, k: nat, a: real, x: real, y: real, g: seq<Slice>)
    requires 2 <= |choices| < MIN_CHOICES_FOR_SINGLE_SLICES && i < |choices|
    requires k == |choices| + i && a == FullTurn / (2 * |choices|) as real
    requires x == i as real * a && y == k as real * a
    requires g == GenerateWheelSlices(PrepareWheelData(choices))
    ensures |g| == 2 * |choices|
    ensures g[2 * i] == Slice(choices[i].text, GetValidColor(i), x, a)
    ensures g[2 * i + 1] == Slice(choices[i].text, GetValidColor(i), y, a)
    ensures y == Rem360(x + 180.0)
  {
    HalfWidth(|choices|, a);
    var items := PrepareWheelData(choices);
    FewGeneratedFrom(choices, items, a, g);
    GeneratePairAt(items, 0.0, a, i);
    FewCursors(|choices|, i, k, a, x, y);
  }

  /** With two to five choices, generation runs over items that each occur
      twice, with slices of width 360/2n. */
  lemma FewGeneratedFrom(choices: seq<Choice>, items: seq<WheelItem>, a: real, g: seq<Slice>)
    requires 2 <= |choices| < MIN_CHOICES_FOR_SINGLE_SLICES
    requires a == FullTurn / (2 * |choices|) as real
    requires items == PrepareWheelData(choices) && g == GenerateWheelSlices(items)
    ensures |items| == |choices| && |g| == 2 * |choices|
    ensures forall j :: 0 <= j < |items| ==> items[j].occurrences == 2
    ensures g == GenerateFrom(items, 0.0, a)
  {
    TotalUniform(items, 2);
  }

  /** Where choice i's original and duplicate land on a wheel of 2n slices. */
  lemma FewCursors(n: nat, i: nat, k: nat, a: real, x: real, y: real)
    requires i < n && k == n + i && a == FullTurn / (2 * n) as real
    requires x == i as real * a && y == k as real * a
    ensures CursorAt(0.0, a, i) == x && Rem360(CursorAt(0.0, a, i) + 180.0) == y
  {
    CursorIsMultiple(a, i);
    DuplicateCursor(n, i, k, a);
  }

  /** Reference slices i and n + i of a wheel of 2n slices both belong to
      choice i. */
  lemma FewTiledAt(choices: seq<Choice>, i: nat, k: nat, a: real, x: real, y: real, w: seq<Slice>)
    requires 2 <= |choices| < MIN_CHOICES_FOR_SINGLE_SLICES && i < |choices|
    requires k == |choices| + i && a == FullTurn / (2 * |choices|) as real
    requires x == i as real * a && y == k as real * a
    requires w == TiledWheel(choices)
    ensures |w| == 2 * |choices|
    ensures w[i] == Slice(choices[i].text, GetValidColor(i), x, a)
    ensures w[k] == Slice(choices[i].text, GetValidColor(i), y, a)
  {
    var n := |choices|;
    var m := 2 * n;
    SmallMod(i, n);
    ModPlusOnce(i, n);
    TiledSliceOf(choices, m, i, i, a);
    TiledSliceOf(choices, m, k, i, a);
    TiledAt(choices, i);
    TiledAt(choices, k);
  }

  /** The slices generated for two to five choices, before the sort: choice i
      yields reference slices i and n + i, in that order. */
  lemma GeneratedFewIsInterleaved(choices: seq<Choice>)
    requires 2 <= |choices| < MIN_CHOICES_FOR_SINGLE_SLICES
    ensures var n := |choices|;
            var w := TiledWheel(choices);
            FixColors(GenerateWheelSlices(PrepareWheelData(choices))) == Interleave(w[..n], w[n..])
  {
    var g := GenerateWheelSlices(PrepareWheelData(choices));
    FewIsInterleaved(choices, g, TiledWheel(choices));
    FixColorsKeepsPalette(g);
  }

  lemma FewIsInterleaved(choices: seq<Choice>, g: seq<Slice>, w: seq<Slice>)
    requires 2 <= |choices| < MIN_CHOICES_FOR_SINGLE_SLICES
    requires g == GenerateWheelSlices(PrepareWheelData(choices)) && w == TiledWheel(choices)
    ensures |w| == 2 * |choices|
    ensures g == Interleave(w[..|choices|], w[|choices|..])
    ensures forall k :: 0 <= k < |g| ==> g[k].color in COLORS
  {
    var n := |choices|;
    FewPairAt(choices, 0, g, w);
    var il := Interleave(w[..n], w[n..]);
    assert |g| == |il|;
    forall k | 0 <= k < |g|
      ensures g[k] == il[k] && g[k].color in COLORS
    {
      var i := k / 2;
      if k % 2 == 0 {
        FewEvenAt(choices, i, g, w, il);
        assert k == 2 * i;
      } else {
        FewOddAt(choices, i, g, w, il);
        assert k == 2 * i + 1;
      }
    }
  }

  lemma FewEvenAt(choices: seq<Choice>, i: nat, g: seq<Slice>, w: seq<Slice>, il: seq<Slice>)
    requires 2 <= |choices| < MIN_CHOICES_FOR_SINGLE_SLICES && i < |choices|
    requires g == GenerateWheelSlices(PrepareWheelData(choices)) && w == TiledWheel(choices)
    requires |w| == 2 * |choices| && il == Interleave(w[..|choices|], w[|choices|..])
    ensures 2 * i < |g| == |il| && g[2 * i] == il[2 * i] && g[2 * i].color in COLORS
  {
    var n := |choices|;
    FewPairAt(choices, i, g, w);
    InterleaveAt(w[..n], w[n..], i);
    assert w[..n][i] == w[i];
  }

  lemma FewOddAt(choices: seq<Choice>, i: nat, g: seq<Slice>, w: seq<Slice>, il: seq<Slice>)
    requires 2 <= |choices| < MIN_CHOICES_FOR_SINGLE_SLICES && i < |choices|
    requires g == GenerateWheelSlices(PrepareWheelData(choices)) && w == TiledWheel(choices)
    requires |w| == 2 * |choices| && il == Interleave(w[..|choices|], w[|choices|..])
    ensures 2 * i + 1 < |g| == |il| && g[2 * i + 1] == il[2 * i + 1] && g[2 * i + 1].color in COLORS
  {
    var n := |choices|;
    FewPairAt(choices, i, g, w);
    InterleaveAt(w[..n], w[n..], i);
    assert w[n..][i] == w[n + i];
  }

  /** The cursor-relative form of FewSliceAngles. */
  lemma DuplicateCursor(n: nat, i: nat, k: nat, a: real)
    requires i < n && k == n + i && a == FullTurn / (2 * n) as real
    ensures Rem360(CursorAt(0.0, a, i) + 180.0) == k as real * a
  {
    CursorIsMultiple(a, i);
    FewSliceAngles(n, i, a);
  }

  /** On a wheel of 2n slices, choice i's duplicate lands on slice n + i. */
  lemma FewSliceAngles(n: nat, i: nat, a: real)
    requires i < n && a == FullTurn / (2 * n) as real
    ensures Rem360(i as real * a + 180.0) == (n + i) as real * a
  {
    UnitAngle(2 * n);
    assert a * n as real == 180.0;
    ScaleStrict(i, n, a);
    assert (n + i) as real * a == n as real * a + i as real * a;
  }

  /** The builder's output is exactly the reference wheel, for every choice
      list: the sort turns the generated slices into the tiling of the circle. */
  lemma CalculateWheelSlicesIsTiled(choices: seq<Choice>)
    ensures CalculateWheelSlices(choices) == TiledWheel(choices)
  {
    var n := |choices|;
    if n == 0 {
    } else if n == 1 {
      SortedSingleIsTiled(choices);
    } else if n < MIN_CHOICES_FOR_SINGLE_SLICES {
      SortedFewIsTiled(choices);
    } else {
      GeneratedManyIsTiled(choices);
      TiledWheelStrictlySorted(choices);
      SortedPermutationUnique(CalculateWheelSlices(choices), TiledWheel(choices));
    }
  }

  lemma SortedSingleIsTiled(choices: seq<Choice>)
    requires |choices| == 1
    ensures CalculateWheelSlices(choices) == TiledWheel(choices)
  {
    var w := TiledWheel(choices);
    var items := PrepareWheelData(choices);
    var g := GenerateWheelSlices(items);
    GenerateSingleAt(items, 0.0, FullTurn, 0);
    FixColorsKeepsPalette(g);
    TiledAt(choices, 0);
    assert g == w;
    TiledWheelStrictlySorted(choices);
    SortedPermutationUnique(CalculateWheelSlices(choices), w);
  }

  lemma SortedFewIsTiled(choices: seq<Choice>)
    requires 2 <= |choices| < MIN_CHOICES_FOR_SINGLE_SLICES
    ensures CalculateWheelSlices(choices) == TiledWheel(choices)
  {
    var n := |choices|;
    var w := TiledWheel(choices);
    var fixed := FixColors(GenerateWheelSlices(PrepareWheelData(choices)));
    GeneratedFewIsInterleaved(choices);
    InterleaveMultiset(w[..n], w[n..]);
    assert w == w[..n] + w[n..];
    assert multiset(fixed) == multiset(w);
    TiledWheelStrictlySorted(choices);
    SortedPermutationUnique(CalculateWheelSlices(choices), w);
  }
}

=== FILE: choices.dfy ===
/** Choice texts: JavaScript's `trim`, ASCII lower-casing, the library's
    `createChoice` and the case-insensitive duplicate check `isDuplicateChoice`
    of `src/utils/wheelUtils.js`. */
module Choices {

  /** A choice as the slice builder sees it: only its text is read. */
  datatype Choice = Choice(text: string)

  /** The characters `String.prototype.trim` removes: ECMAScript's
      WhiteSpace and LineTerminator code points. */
  predicate IsTrimmable(c: char)
  {
    || c == '\t' || c == '\n' || c == '\U{0B}' || c == '\U{0C}' || c == '\r'
    || c == ' ' || c == '\U{A0}' || c == '\U{1680}'
    || ('\U{2000}' <= c <= '\U{200A}')
    || c == '\U{2028}' || c == '\U{2029}' || c == '\U{202F}' || c == '\U{205F}'
    || c == '\U{3000}' || c == '\U{FEFF}'
  }

  predicate AllTrimmable(s: string)
  {
    forall i :: 0 <= i < |s| ==> IsTrimmable(s[i])
  }

  /** Drops trimmable characters from the front. */
  function TrimStart(s: string): (r: string)
    ensures |r| <= |s| && r == s[|s| - |r|..] && AllTrimmable(s[..|s| - |r|])
    ensures |r| > 0 ==> !IsTrimmable(r[0])
  {
    if |s| > 0 && IsTrimmable(s[0]) then
      var r := TrimStart(s[1..]);
      TrimStartStep(s, r);
      r
    else
      s
  }

  /** Dropping one more leading whitespace character keeps the suffix and
      extends the dropped prefix. */
  lemma TrimStartStep(s: string, r: string)
    requires |s| > 0 && IsTrimmable(s[0])
    requires |r| <= |s| - 1 && r == s[1..][|s| - 1 - |r|..]
    requires AllTrimmable(s[1..][..|s| - 1 - |r|])
    ensures r == s[|s| - |r|..] && AllTrimmable(s[..|s| - |r|])
  {
    var k := |s| - |r|;
    assert s[1..][k - 1..] == s[k..];
    forall i | 0 <= i < k
      ensures IsTrimmable(s[..k][i])
    {
      if i > 0 {
        assert s[..k][i] == s[1..][..k - 1][i - 1];
      }
    }
  }

  /** Drops trimmable characters from the back. */
  function TrimEnd(s: string): (r: string)
    ensures |r| <= |s| && r == s[..|r|] && AllTrimmable(s[|r|..])
    ensures |r| > 0 ==> !IsTrimmable(r[|r| - 1])
    ensures |s| > 0 && !IsTrimmable(s[0]) ==> |r| > 0 && r[0] == s[0]
  {
    if |s| > 0 && IsTrimmable(s[|s| - 1]) then
      var p := s[..|s| - 1];
      var r := TrimEnd(p);
      assert s[|r|..] == p[|r|..] + [s[|s| - 1]];
      r
    else
      s
  }

  /** How many characters `trim` drops from the front of s. */
  function TrimOffset(s: string): (k: nat)
    ensures k <= |s| && AllTrimmable(s[..k])
  {
    |s| - |TrimStart(s)|
  }

  /** JavaScript's `s.trim()`: the text between leading and trailing
      whitespace, with no whitespace left at either end. */
  function Trim(s: string): (r: string)
    ensures |r| > 0 ==> !IsTrimmable(r[0]) && !IsTrimmable(r[|r| - 1])
    ensures TrimOffset(s) + |r| <= |s|
    ensures r == s[TrimOffset(s)..TrimOffset(s) + |r|]
    ensures AllTrimmable(s[TrimOffset(s) + |r|..])
  {
    var a := TrimStart(s);
    var r := TrimEnd(a);
    TrimSplit(s, TrimOffset(s), a, r);
    r
  }

  /** The trimmed text sits between the dropped prefix and the dropped
      suffix of the original. */
  lemma TrimSplit(s: string, k: nat, a: string, r: string)
    requires k <= |s| && a == s[k..]
    requires |r| <= |a| && r == a[..|r|] && AllTrimmable(a[|r|..])
    ensures k + |r| <= |s| && r == s[k..k + |r|] && AllTrimmable(s[k + |r|..])
  {
    assert s[k + |r|..] == a[|r|..];
  }

  /** Trimming an already-trimmed text changes nothing. */
  lemma TrimIdempotent(s: string)
    ensures Trim(Trim(s)) == Trim(s)
  {
    var t := Trim(s);
    TrimmedIsFixed(t);
  }

  lemma TrimmedIsFixed(t: string)
    requires |t| > 0 ==> !IsTrimmable(t[0]) && !IsTrimmable(t[|t| - 1])
    ensures Trim(t) == t
  {
    assert TrimStart(t) == t;
    if |t| > 0 {
      assert TrimEnd(t) == t;
    }
  }

  /** Trimming leaves nothing exactly when the text is all whitespace. */
  lemma TrimEmptyIffBlank(s: string)
    ensures Trim(s) == "" <==> AllTrimmable(s)
  {
    var i := TrimOffset(s);
    if Trim(s) == "" {
      assert TrimStart(s) == "";
      assert s[..i] == s;
    } else {
      assert s[i] == Trim(s)[0];
    }
  }

  /** An ASCII capital letter. */
  predicate IsAsciiUpper(c: char)
  {
    'A' <= c <= 'Z'
  }

  /** Each capital letter maps to its own small letter, 32 code points
      further on; every other character is left as it is. */
  function LowerChar(c: char): (d: char)
    ensures IsAsciiUpper(c) ==> 'a' <= d <= 'z' && d as int == c as int + 32
    ensures !IsAsciiUpper(c) ==> d == c
  {
    if IsAsciiUpper(c) then (c as int - 'A' as int + 'a' as int) as char else c
  }

  /** Two characters are the same letter written in either case: equal, or
      one a capital and the other its small letter. */
  predicate SameIgnoringAsciiCase(c: char, d: char)
  {
    c == d
    || (IsAsciiUpper(c) && d as int == c as int + 32)
    || (IsAsciiUpper(d) && c as int == d as int + 32)
  }

  /** Two texts that differ at most in the case of ASCII letters. */
  predicate EqualIgnoringAsciiCase(s: string, t: string)
  {
    |s| == |t| && forall i :: 0 <= i < |s| ==> SameIgnoringAsciiCase(s[i], t[i])
  }

  /** `s.toLowerCase()`, restricted to ASCII case mapping: the text keeps its
      length, loses every capital letter, and differs from the input only in
      letter case. */
  function Lower(s: string): (r: string)
    ensures |r| == |s|
    ensures forall i :: 0 <= i < |r| ==> !IsAsciiUpper(r[i])
    ensures EqualIgnoringAsciiCase(s, r)
  {
    seq(|s|, i requires 0 <= i < |s| => LowerChar(s[i]))
  }

  /** Lower-casing is idempotent. */
  lemma LowerIdempotent(s: string)
    ensures Lower(Lower(s)) == Lower(s)
  {
  }

  /** Two characters lower-case alike exactly when they are the same letter
      up to case. */
  lemma LowerCharIff(c: char, d: char)
    ensures LowerChar(c) == LowerChar(d) <==> SameIgnoringAsciiCase(c, d)
  {
  }

  /** Lower-casing identifies exactly the texts that differ only in ASCII
      letter case: this is what makes the duplicate check case-insensitive. */
  lemma {:induction false} LowerEqualIff(s: string, t: string)
    ensures Lower(s) == Lower(t) <==> EqualIgnoringAsciiCase(s, t)
  {
    if |s| == |t| {
      if Lower(s) == Lower(t) {
        forall i | 0 <= i < |s|
          ensures SameIgnoringAsciiCase(s[i], t[i])
        {
          assert Lower(s)[i] == Lower(t)[i];
          LowerCharIff(s[i], t[i]);
        }
      }
      if EqualIgnoringAsciiCase(s, t) {
        forall i | 0 <= i < |s|
          ensures Lower(s)[i] == Lower(t)[i]
        {
          LowerCharIff(s[i], t[i]);
        }
      }
    } else {
      assert |Lower(s)| != |Lower(t)|;
    }
  }

  /** The library's `createChoice`: the text is trimmed (the generated id is
      not part of this model). */
  function CreateChoice(text: string): (c: Choice)
    ensures c.text == Trim(text)
    ensures |c.text| <= |text|
  {
    Choice(Trim(text))
  }

  /** True when some entry from index `from` on, other than `excludeIndex`,
      lower-cases to `key`: the callback scan of `choices.some`. */
  function SomeEntryMatches(choices: seq<Choice>, from: nat, excludeIndex: int, key: string): (r: bool)
    decreases |choices| - from
    ensures r <==> exists j :: from <= j < |choices| && j != excludeIndex && Lower(choices[j].text) == key
  {
    if from >= |choices| then false
    else if from != excludeIndex && Lower(choices[from].text) == key then true
    else SomeEntryMatches(choices, from + 1, excludeIndex, key)
  }

  /** `isDuplicateChoice(text, choices, excludeIndex)`: blank text is never a
      duplicate; otherwise the trimmed, lower-cased text is compared with the
      lower-cased text of every entry except the one at `excludeIndex`. */
  function IsDuplicateChoice(text: string, choices: seq<Choice>, excludeIndex: int): (dup: bool)
    ensures AllTrimmable(text) ==> !dup
    ensures dup <==> Trim(text) != ""
                     && exists j :: 0 <= j < |choices| && j != excludeIndex
                                    && Lower(choices[j].text) == Lower(Trim(text))
  {
    TrimEmptyIffBlank(text);
    if text == "" || Trim(text) == "" then false
    else SomeEntryMatches(choices, 0, excludeIndex, Lower(Trim(text)))
  }

  /** The entry at `excludeIndex` is never compared: replacing it does not
      change the answer. */
  lemma ExcludedEntryIgnored(text: string, choices: seq<Choice>, excludeIndex: nat, other: Choice)
    requires excludeIndex < |choices|
    ensures IsDuplicateChoice(text, choices[excludeIndex := other], excludeIndex)
            == IsDuplicateChoice(text, choices, excludeIndex)
  {
    var c' := choices[excludeIndex := other];
    var key := Lower(Trim(text));
    assert forall j :: 0 <= j < |choices| && j != excludeIndex ==> c'[j] == choices[j];
  }

  /** Re-entering an existing choice's text, in any letter case and with any
      surrounding whitespace, is reported as a duplicate unless that entry is
      the one excluded. */
  lemma ExistingTextIsDuplicate(choices: seq<Choice>, j: nat, excludeIndex: int, typed: string)
    requires j < |choices| && j != excludeIndex
    requires Trim(typed) != ""
    requires EqualIgnoringAsciiCase(Trim(typed), choices[j].text)
    ensures IsDuplicateChoice(typed, choices, excludeIndex)
  {
    LowerEqualIff(Trim(typed), choices[j].text);
  }

  /** The check does not see letter case or surrounding whitespace: two
      texts whose trimmed forms differ only in ASCII letter case get the
      same answer. */
  lemma DuplicateIgnoresCase(a: string, b: string, choices: seq<Choice>, excludeIndex: int)
    requires EqualIgnoringAsciiCase(Trim(a), Trim(b))
    ensures IsDuplicateChoice(a, choices, excludeIndex) == IsDuplicateChoice(b, choices, excludeIndex)
  {
    LowerEqualIff(Trim(a), Trim(b));
  }
}

=== FILE: display.dfy ===
/** The live-display resolver of the library (`src/utils/wheelUtils.js`):
    `calculateRotatedSlicePositions` carries every slice's start to
    `rotate + rotation` and flags the slices over the indicator, and
    `calculateRotatedSliceAtIndicator` returns the first flagged slice. Its
    sign convention is the opposite of the test suite's resolver, and its
    rule for slices crossing 0 accepts every such slice. */
module Display {
  import opened Angles
  import opened Builder
  import opened Resolver
  import opened Choices
  import opened Winner
  import Layout

  /** One entry of `calculateRotatedSlicePositions`. */
  datatype Position = Position(index: int, text: string, startAngle: real, endAngle: real,
                               containsZeroDegree: bool)

  /** The display's boundary rule: a slice that does not cross 0 must start
      exactly at 0 and end after it; a slice that crosses 0 always counts.
      On angles in [0, 360), crossing means the reduced end lies below the
      start. */
  function DisplayCovers(start: real, end: real): (b: bool)
    ensures 0.0 <= start < FullTurn && 0.0 <= end < FullTurn ==>
              (b <==> (start == 0.0 && 0.0 < end) || end < start)
  {
    if start <= end then 0.0 >= start && 0.0 < end else true
  }

  /** Slice i moved with the rotation, already normalised into [0, 360):
      its end is the start plus the width reduced with `% 360`, and it is
      flagged by the display's boundary rule. Below a full turn that flag
      means the rotated arc [start, start + width] starts at 0 or reaches
      a full turn, its far end included. */
  function PositionOf(slice: Slice, i: nat, norm: real): (p: Position)
    ensures p.index == i && p.text == slice.text
    ensures 0.0 <= p.startAngle < FullTurn
    ensures p.startAngle == NormAngle(slice.rotate + norm)
    ensures p.endAngle == Rem360(p.startAngle + slice.sliceAngle)
    ensures p.containsZeroDegree == DisplayCovers(p.startAngle, p.endAngle)
    ensures 0.0 < slice.sliceAngle < FullTurn ==>
              (p.containsZeroDegree <==> p.startAngle == 0.0 || p.startAngle + slice.sliceAngle >= FullTurn)
  {
    var start := Wrap(slice.rotate + norm);
    var end := Rem360(start + slice.sliceAngle);
    WrapIsNormAngle(slice.rotate + norm);
    ClosedEndFlag(start, slice.sliceAngle);
    Position(i, slice.text, start, end, DisplayCovers(start, end))
  }

  /** The display's rule on an arc that starts in [0, 360) and is narrower
      than a full turn: it holds exactly when the arc starts at 0 or its
      closed far end reaches a full turn. */
  lemma ClosedEndFlag(start: real, a: real)
    ensures 0.0 <= start < FullTurn && 0.0 < a < FullTurn ==>
              (DisplayCovers(start, Rem360(start + a)) <==> start == 0.0 || start + a >= FullTurn)
  {
    if 0.0 <= start < FullTurn && 0.0 < a < FullTurn {
      if start + a < FullTurn {
        assert Rem360(start + a) == start + a;
      } else {
        assert Rem360(start + a) == start + a - FullTurn;
      }
    }
  }

  /** `calculateRotatedSlicePositions`: nothing for no slices, the whole
      circle for a lone slice, and otherwise one position per slice, in
      order, starting at `(rotate + rotation)` normalised. */
  function CalculateRotatedSlicePositions(slices: seq<Slice>, rotation: real): (ps: seq<Position>)
    ensures |ps| == |slices|
    ensures |slices| == 1 ==> ps == [Position(0, slices[0].text, 0.0, FullTurn, true)]
    ensures |slices| >= 2 ==>
              forall i :: 0 <= i < |ps| ==>
                ps[i].index == i && ps[i].text == slices[i].text
                && ps[i].startAngle == NormAngle(slices[i].rotate + rotation)
    ensures |slices| >= 2 ==>
              forall i :: 0 <= i < |ps| ==> ps[i] == PositionOf(slices[i], i, Wrap(rotation))
  {
    if |slices| == 0 then []
    else if |slices| == 1 then [Position(0, slices[0].text, 0.0, FullTurn, true)]
    else
      var norm := Wrap(rotation);
      forall i | 0 <= i < |slices|
        ensures PositionOf(slices[i], i, norm).startAngle == NormAngle(slices[i].rotate + rotation)
      {
        WrapIsNormAngle(rotation);
        WrapIsNormAngle(slices[i].rotate + norm);
        NormAngleOfDifference(slices[i].rotate, rotation);
      }
      seq(|slices|, i requires 0 <= i < |slices| => PositionOf(slices[i], i, norm))
  }

  /** The list position of the first flagged entry from `from` on, or -1. */
  function FirstFlagged(ps: seq<Position>, from: nat): (j: int)
    decreases |ps| - from
    ensures j == -1 || from <= j < |ps|
    ensures j == -1 ==> forall i :: from <= i < |ps| ==> !ps[i].containsZeroDegree
    ensures j != -1 ==> ps[j].containsZeroDegree
                        && forall i :: from <= i < j ==> !ps[i].containsZeroDegree
  {
    if from >= |ps| then -1
    else if ps[from].containsZeroDegree then from
    else FirstFlagged(ps, from + 1)
  }

  /** `calculateRotatedSliceAtIndicator`: the index field of the first
      flagged position, or -1 when there is none. */
  function CalculateRotatedSliceAtIndicator(ps: seq<Position>): (index: int)
    ensures |ps| == 0 ==> index == -1
    ensures (forall i :: 0 <= i < |ps| ==> !ps[i].containsZeroDegree) ==> index == -1
    ensures forall j :: 0 <= j < |ps| && ps[j].containsZeroDegree
                        && (forall i :: 0 <= i < j ==> !ps[i].containsZeroDegree)
                        ==> index == ps[j].index
  {
    if |ps| == 0 then -1
    else
      var j := FirstFlagged(ps, 0);
      if j == -1 then -1 else ps[j].index
  }

  /** The display's answer for a wheel and a rotation: -1 for no slices, 0
      for a lone slice, and otherwise the first slice whose position at the
      normalised rotation is flagged, or -1 when none is. */
  function DisplayWinner(slices: seq<Slice>, rotation: real): (i: int)
    ensures |slices| == 0 ==> i == -1
    ensures |slices| == 1 ==> i == 0
    ensures -1 <= i < |slices|
    ensures |slices| >= 2 ==>
              (i == -1 <==> forall j :: 0 <= j < |slices| ==>
                              !PositionOf(slices[j], j, Wrap(rotation)).containsZeroDegree)
    ensures |slices| >= 2 && i != -1 ==>
              PositionOf(slices[i], i, Wrap(rotation)).containsZeroDegree
              && forall j :: 0 <= j < i ==> !PositionOf(slices[j], j, Wrap(rotation)).containsZeroDegree
  {
    var ps := CalculateRotatedSlicePositions(slices, rotation);
    CalculateRotatedSliceAtIndicator(ps)
  }

  // ---------------------------------------------------------------------
  // Basic behaviour
  // ---------------------------------------------------------------------

  /** No slices give -1 and a lone slice gives 0, at any rotation. */
  lemma DisplayEmptyAndSingle(s: Slice, rotation: real)
    ensures DisplayWinner([], rotation) == -1
    ensures DisplayWinner([s], rotation) == 0
  {
    assert CalculateRotatedSlicePositions([s], rotation)[0].containsZeroDegree;
  }

  /** Whole turns added to the rotation do not change the display's answer. */
  lemma DisplayFullTurns(slices: seq<Slice>, rotation: real, k: int)
    ensures DisplayWinner(slices, rotation + FullTurn * k as real) == DisplayWinner(slices, rotation)
  {
    WrapIsNormAngle(rotation);
    WrapIsNormAngle(rotation + FullTurn * k as real);
    NormAngleFullTurns(rotation, k);
    assert CalculateRotatedSlicePositions(slices, rotation + FullTurn * k as real)
           == CalculateRotatedSlicePositions(slices, rotation);
  }

  /** The two conventions mirror each other: the display's start at rotation
      θ is the test resolver's start at rotation -θ. */
  lemma StartsMirror(slice: Slice, rotation: real)
    ensures PositionOf(slice, 0, Wrap(rotation)).startAngle == RotatedStart(slice, Opposite(rotation))
  {
    WrapIsNormAngle(rotation);
    WrapIsNormAngle(slice.rotate + Wrap(rotation));
    NormAngleOfDifference(slice.rotate, rotation);
    assert slice.rotate - Opposite(rotation) == slice.rotate + rotation;
  }

  /** The display's rule accepts everything the test suite's rule accepts,
      and more exactly at the seam: a slice whose end falls on 0 while its
      start does not. */
  lemma DisplayRuleAtSeam(start: real, end: real)
    requires 0.0 <= start && 0.0 <= end
    ensures CoversIndicator(start, end) ==> DisplayCovers(start, end)
    ensures DisplayCovers(start, end) && !CoversIndicator(start, end) <==> end == 0.0 < start
  {
  }

  /** For a slice narrower than a full turn, the display flags it exactly
      when its rotated arc [t, t + a] starts at 0 or reaches a full turn,
      the far end included. */
  lemma DisplayFlagIsClosedAtEnd(slice: Slice, norm: real)
    requires 0.0 < slice.sliceAngle < FullTurn
    ensures var p := PositionOf(slice, 0, norm);
            p.containsZeroDegree <==> p.startAngle == 0.0 || p.startAngle + slice.sliceAngle >= FullTurn
  {
    var p := PositionOf(slice, 0, norm);
    var t := p.startAngle;
    var a := slice.sliceAngle;
    if t + a < FullTurn {
      assert Rem360(t + a) == t + a;
    } else {
      assert Rem360(t + a) == t + a - FullTurn;
    }
  }

  // ---------------------------------------------------------------------
  // The display against the test suite's resolver on the library's wheel
  // ---------------------------------------------------------------------

  /** A slice of the unrotated wheel lying within [0, 360), seen by the
      display at rotation θ, with v the test suite's normalised angle at -θ:
      it is flagged exactly when v is its start, when v is 0 and the slice
      ends at a full turn, or when v lies in (rotate, rotate + width]. */
  lemma DisplayFlagOnPlacedSlice(slice: Slice, rotation: real, v: real)
    requires 0.0 <= slice.rotate && 0.0 < slice.sliceAngle < FullTurn
    requires slice.rotate + slice.sliceAngle <= FullTurn
    requires v == Wrap(Opposite(rotation))
    ensures var r := slice.rotate;
            var a := slice.sliceAngle;
            PositionOf(slice, 0, Wrap(rotation)).containsZeroDegree
            <==> r == v || (v == 0.0 && r + a == FullTurn) || (r < v <= r + a)
  {
    var p := PositionOf(slice, 0, Wrap(rotation));
    DisplayStartAgainstTest(slice, rotation, v);
    DisplayFlagIsClosedAtEnd(slice, Wrap(rotation));
    ClosedArcAgainstTest(p.startAngle, slice.rotate, slice.sliceAngle, v);
  }

  /** The display's start at θ, measured against the test suite's angle v
      at -θ. */
  lemma DisplayStartAgainstTest(slice: Slice, rotation: real, v: real)
    requires v == Wrap(Opposite(rotation))
    ensures PositionOf(slice, 0, Wrap(rotation)).startAngle == NormAngle(slice.rotate - v)
  {
    StartsMirror(slice, rotation);
    WrapIsNormAngle(Opposite(rotation));
    NormAngleOfDifference(slice.rotate, Opposite(rotation));
  }

  lemma ClosedArcAgainstTest(t: real, r: real, a: real, v: real)
    requires 0.0 <= r && 0.0 < a < FullTurn && r + a <= FullTurn
    requires 0.0 <= v < FullTurn && t == NormAngle(r - v)
    ensures t == 0.0 || t + a >= FullTurn
            <==> r == v || (v == 0.0 && r + a == FullTurn) || (r < v <= r + a)
  {
    if r >= v {
      NormAngleUnique(r - v, r - v, 0);
    } else {
      NormAngleUnique(r - v, r - v + FullTurn, -1);
    }
  }

  /** The display's hit test on the unrotated slice [r, r + a] against the
      test suite's angle v. */
  predicate ClosedHit(r: real, a: real, v: real)
  {
    r == v || (v == 0.0 && r + a == FullTurn) || (r < v <= r + a)
  }

  /** The slice the display settles on when the slice under v is k: the
      previous one when v lies exactly on the start of slice k >= 1. */
  function SeamAdjusted(v: real, a: real, k: int): int
  {
    if v == k as real * a && k >= 1 then k - 1 else k
  }

  /** On a wheel of m >= 2 equal slices laid out from 0, with v the test
      suite's normalised angle at -θ and k the slice under v, the display at
      θ answers k, except when v falls exactly on the boundary at the start
      of slice k >= 1: then it answers k - 1. */
  lemma UniformDisplay(s: seq<Slice>, a: real, rotation: real, v: real, k: int)
    requires |s| >= 2 && a == FullTurn / |s| as real && Uniform(s, a)
    requires v == Wrap(Opposite(rotation)) && k == FloorDiv(v, a)
    ensures DisplayWinner(s, rotation) == SeamAdjusted(v, a, k)
  {
    var ps := CalculateRotatedSlicePositions(s, rotation);
    var target := SeamAdjusted(v, a, k);
    UniformTargetFlagged(s, a, rotation, v, k, ps, target);
    UniformNoneFlaggedBefore(s, a, rotation, v, k, ps);
    FirstFlaggedWins(ps, target);
  }

  /** The slice the display settles on is flagged. */
  lemma UniformTargetFlagged(s: seq<Slice>, a: real, rotation: real, v: real, k: int,
                             ps: seq<Position>, target: int)
    requires |s| >= 2 && a == FullTurn / |s| as real && Uniform(s, a)
    requires v == Wrap(Opposite(rotation)) && k == FloorDiv(v, a)
    requires ps == CalculateRotatedSlicePositions(s, rotation) && target == SeamAdjusted(v, a, k)
    ensures 0 <= target <= k < |s| == |ps|
    ensures ps[target].index == target && ps[target].containsZeroDegree
  {
    SeamAdjustedInRange(|s|, a, v, k, target);
    UniformFlag(s, a, rotation, v, target);
  }

  /** The slice the display settles on is a slice of the wheel, no later
      than the slice under v. */
  lemma SeamAdjustedInRange(m: nat, a: real, v: real, k: int, target: int)
    requires m >= 2 && a == FullTurn / m as real && 0.0 <= v < FullTurn
    requires k == FloorDiv(v, a) && target == SeamAdjusted(v, a, k)
    ensures 0 <= target <= k < m
    ensures ClosedHit(target as real * a, a, v)
  {
    UnitAngle(m);
    SliceUnderInRange(v, m);
    SeamAdjustedHits(v, a, k);
  }

  lemma UniformNoneFlaggedBefore(s: seq<Slice>, a: real, rotation: real, v: real, k: int,
                                 ps: seq<Position>)
    requires |s| >= 2 && a == FullTurn / |s| as real && Uniform(s, a)
    requires v == Wrap(Opposite(rotation)) && k == FloorDiv(v, a) && k < |s|
    requires ps == CalculateRotatedSlicePositions(s, rotation)
    ensures forall j :: 0 <= j < SeamAdjusted(v, a, k) ==> !ps[j].containsZeroDegree
  {
    UnitAngle(|s|);
    SeamAdjustedHits(v, a, k);
    forall j | 0 <= j < SeamAdjusted(v, a, k)
      ensures !ps[j].containsZeroDegree
    {
      UniformFlag(s, a, rotation, v, j);
      MissBeforeSeamAdjusted(v, a, k, j);
    }
  }

  /** A flagged position with none flagged before it is the answer. */
  lemma FirstFlaggedWins(ps: seq<Position>, j: nat)
    requires j < |ps| && ps[j].containsZeroDegree
    requires forall i :: 0 <= i < j ==> !ps[i].containsZeroDegree
    ensures CalculateRotatedSliceAtIndicator(ps) == ps[j].index
  {
  }

  /** Slice j of a uniform wheel is flagged exactly when its unrotated arc
      passes the hit test. */
  lemma UniformFlag(s: seq<Slice>, a: real, rotation: real, v: real, j: int)
    requires |s| >= 2 && a == FullTurn / |s| as real && Uniform(s, a)
    requires v == Wrap(Opposite(rotation)) && 0 <= j < |s|
    ensures var ps := CalculateRotatedSlicePositions(s, rotation);
            ps[j].index == j
            && (ps[j].containsZeroDegree <==> ClosedHit(j as real * a, a, v))
  {
    UnitAngle(|s|);
    AtMostHalfTurn(|s|, a);
    ScaleBelow(j, |s|, a);
    assert CalculateRotatedSlicePositions(s, rotation)[j] == PositionOf(s[j], j, Wrap(rotation));
    DisplayFlagOnPlacedSlice(s[j], rotation, v);
  }

  /** The slice the display settles on passes the hit test. */
  lemma SeamAdjustedHits(v: real, a: real, k: int)
    requires a > 0.0 && 0.0 <= v && k == FloorDiv(v, a)
    ensures 0 <= SeamAdjusted(v, a, k) <= k
    ensures ClosedHit(SeamAdjusted(v, a, k) as real * a, a, v)
  {
    FloorScale(v, a);
    if v == k as real * a && k >= 1 {
      assert (k - 1) as real * a + a == k as real * a;
    }
  }

  /** No slice before it passes the hit test. */
  lemma MissBeforeSeamAdjusted(v: real, a: real, k: int, j: int)
    requires a > 0.0 && 0.0 <= v && k == FloorDiv(v, a)
    requires 0 <= j < SeamAdjusted(v, a, k)
    ensures !ClosedHit(j as real * a, a, v)
  {
    FloorScale(v, a);
    var x := j as real * a;
    var y := (j + 1) as real * a;
    var z := k as real * a;
    assert y == x + a;
    MulPos((j + 1) as real, a);
    if v == z && k >= 1 {
      ScaleStrict(j + 1, k, a);
    } else if j + 1 < k {
      ScaleStrict(j + 1, k, a);
    } else {
      assert y == z && v != z;
    }
    assert 0.0 < y < v;
  }

  /** On the library's wheel with two or more slices, the display at θ
      answers what the test suite's resolver answers at -θ, except when the
      indicator falls exactly on the boundary before that slice (and that
      slice is not slice 0): there the display answers the slice before. */
  lemma DisplayAgainstTest(choices: seq<Choice>, rotation: real)
    requires |CalculateWheelSlices(choices)| >= 2
    ensures var r := CalculateWheelSlices(choices);
            var k := GetSliceAtIndicator(r, Opposite(rotation)).index;
            DisplayWinner(r, rotation) == SeamAdjusted(Wrap(Opposite(rotation)), FullTurn / |r| as real, k)
  {
    CalculateWheelSlicesIsTiled(choices);
    TiledDisplayAgainstTest(choices, rotation);
  }

  lemma TiledDisplayAgainstTest(choices: seq<Choice>, rotation: real)
    requires |TiledWheel(choices)| >= 2
    ensures var w := TiledWheel(choices);
            var k := GetSliceAtIndicator(w, Opposite(rotation)).index;
            DisplayWinner(w, rotation) == SeamAdjusted(Wrap(Opposite(rotation)), FullTurn / |w| as real, k)
  {
    var w := TiledWheel(choices);
    var a := FullTurn / |w| as real;
    var v := Wrap(Opposite(rotation));
    TiledWheelUniform(choices, w, |w|, a);
    TiledWinner(choices, Opposite(rotation));
    UniformDisplay(w, a, rotation, v, GetSliceAtIndicator(w, Opposite(rotation)).index);
  }

  /** On the library's wheel the display always names a real slice: 0 for a
      lone slice, and otherwise one of the slices, never -1. */
  lemma DisplayWinnerInRange(choices: seq<Choice>, rotation: real)
    requires |choices| > 0
    ensures 0 <= DisplayWinner(CalculateWheelSlices(choices), rotation) < |CalculateWheelSlices(choices)|
  {
    var r := CalculateWheelSlices(choices);
    CalculateWheelSlicesIsTiled(choices);
    if |r| == 1 {
      DisplayEmptyAndSingle(r[0], rotation);
      assert r == [r[0]];
    } else {
      DisplayAgainstTest(choices, rotation);
      var k := GetSliceAtIndicator(r, Opposite(rotation)).index;
      assert 0 <= SeamAdjusted(Wrap(Opposite(rotation)), FullTurn / |r| as real, k) <= k;
    }
  }

  /** The two-choice wheel turned by 90 degrees: the display flags slice 2,
      whose rotated arc [270, 360] ends on the indicator, while the test
      suite's resolver at the same rotation answers slice 1. */
  lemma TwoChoicesDisagreeAtQuarterTurn(x: string, y: string)
    ensures var r := CalculateWheelSlices([Choice(x), Choice(y)]);
            DisplayWinner(r, 90.0) == 2 && GetSliceAtIndicator(r, 90.0).index == 1
  {
    var r := CalculateWheelSlices([Choice(x), Choice(y)]);
    Layout.TwoChoiceWheel(x, y);
    Winner.QuarterWheelAtQuarterTurn(r);
    QuarterWheelDisplayAtQuarterTurn(r);
  }

  lemma QuarterWheelDisplayAtQuarterTurn(r: seq<Slice>)
    requires |r| == 4
    requires r[0].rotate == 0.0 && r[1].rotate == 90.0 && r[2].rotate == 180.0
    requires r[0].sliceAngle == r[1].sliceAngle == r[2].sliceAngle == 90.0
    ensures DisplayWinner(r, 90.0) == 2
  {
    var ps := CalculateRotatedSlicePositions(r, 90.0);
    assert Wrap(90.0) == 90.0;
    assert ps[0] == PositionOf(r[0], 0, 90.0);
    assert ps[1] == PositionOf(r[1], 1, 90.0);
    assert ps[2] == PositionOf(r[2], 2, 90.0);
    assert Rem360(90.0 + 90.0) == 180.0;
    assert Rem360(180.0 + 90.0) == 270.0;
    assert Rem360(270.0 + 90.0) == 0.0;
    assert !ps[0].containsZeroDegree;
    assert !ps[1].containsZeroDegree;
    assert ps[2].containsZeroDegree;
    FirstFlaggedWins(ps, 2);
  }
}

=== FILE: layout.dfy ===
/** What the library's `calculateWheelSlices` promises about the wheel it
    returns: the slices tile the circle from 0 to 360 degrees in equal steps,
    their widths add up to a full turn, each choice is shown in its own
    palette colour, and below six choices every choice is shown twice, the
    two copies half a turn apart. Every statement here follows from the
    closed form `Builder.CalculateWheelSlicesIsTiled`. */
module Layout {
  import opened Angles
  import opened Palette
  import opened Choices
  import opened Builder

  /** The `reduce` of the angle check: the widths of all slices added up. */
  function SumAngles(s: seq<Slice>): real
  {
    if |s| == 0 then 0.0 else s[0].sliceAngle + SumAngles(s[1..])
  }

  lemma {:induction false} SumOfEqualWidths(s: seq<Slice>, a: real)
    requires forall k :: 0 <= k < |s| ==> s[k].sliceAngle == a
    ensures SumAngles(s) == |s| as real * a
  {
    if |s| > 0 {
      SumOfEqualWidths(s[1..], a);
      assert |s| as real * a == a + (|s| - 1) as real * a;
    }
  }

  /** Slices laid edge to edge from 0 degrees that close the circle: the
      first starts at 0, each next one starts where the previous ends, and
      the last ends at 360. */
  ghost predicate TilesCircle(s: seq<Slice>)
  {
    |s| > 0 && s[0].rotate == 0.0
    && (forall k :: 0 <= k < |s| - 1 ==> s[k + 1].rotate == s[k].rotate + s[k].sliceAngle)
    && s[|s| - 1].rotate + s[|s| - 1].sliceAngle == FullTurn
  }

  /** The slices of a uniform tiling start at 0, each one starts where the
      previous one ends, and the last one ends at a full turn. */
  lemma UniformTiles(s: seq<Slice>, a: real)
    requires |s| > 0 && a > 0.0 && a * |s| as real == FullTurn && Uniform(s, a)
    ensures TilesCircle(s)
  {
    forall k | 0 <= k < |s| - 1
      ensures s[k + 1].rotate == s[k].rotate + s[k].sliceAngle
    {
      assert (k + 1) as real * a == k as real * a + a;
    }
    var m := |s|;
    assert (m - 1) as real * a + a == m as real * a;
  }

  /** The wheel has one slice for one choice, two per choice below six
      choices and one per choice from six on; every slice is 360/m degrees
      wide. */
  lemma WheelSliceCount(choices: seq<Choice>)
    ensures var r := CalculateWheelSlices(choices);
            |r| == SliceCount(|choices|)
            && forall k :: 0 <= k < |r| ==> r[k].sliceAngle == FullTurn / |r| as real
  {
    CalculateWheelSlicesIsTiled(choices);
    if |choices| > 0 {
      var w := TiledWheel(choices);
      TiledWheelUniform(choices, w, |w|, FullTurn / |w| as real);
    }
  }

  /** For a non-empty choice list the slice widths add up to exactly 360
      degrees, so the source's angle check never warns. */
  lemma WheelAnglesSumToFullTurn(choices: seq<Choice>)
    requires |choices| > 0
    ensures SumAngles(CalculateWheelSlices(choices)) == FullTurn
  {
    CalculateWheelSlicesIsTiled(choices);
    TiledAnglesSum(choices);
  }

  lemma TiledAnglesSum(choices: seq<Choice>)
    requires |choices| > 0
    ensures SumAngles(TiledWheel(choices)) == FullTurn
  {
    var w := TiledWheel(choices);
    var a := FullTurn / |w| as real;
    TiledWheelUniform(choices, w, |w|, a);
    SumOfEqualWidths(w, a);
  }

  /** The sorted wheel tiles [0, 360): it starts at 0, each slice starts
      where the previous one ends, and the last one ends at 360. */
  lemma WheelTilesCircle(choices: seq<Choice>)
    requires |choices| > 0
    ensures TilesCircle(CalculateWheelSlices(choices))
  {
    CalculateWheelSlicesIsTiled(choices);
    TiledTilesCircle(choices);
  }

  lemma TiledTilesCircle(choices: seq<Choice>)
    requires |choices| > 0
    ensures TilesCircle(TiledWheel(choices))
  {
    var w := TiledWheel(choices);
    var m := |w|;
    var a := FullTurn / m as real;
    TiledWheelUniform(choices, w, m, a);
    UniformTiles(w, a);
    assert TilesCircle(w);
  }

  /** Slice k of the wheel shows choice k mod n, in that choice's palette
      colour; in particular every colour is a palette entry. */
  lemma WheelSliceShowsChoice(choices: seq<Choice>, k: nat)
    requires k < |CalculateWheelSlices(choices)|
    ensures |choices| > 0
    ensures var r := CalculateWheelSlices(choices);
            r[k].text == choices[k % |choices|].text
            && r[k].color == GetValidColor(k % |choices|)
            && r[k].color in COLORS
  {
    CalculateWheelSlicesIsTiled(choices);
    TiledShowsChoice(choices, k);
  }

  /** Every choice appears on the wheel: choice i is shown by slice i. */
  lemma WheelShowsEveryChoice(choices: seq<Choice>, i: nat)
    requires i < |choices|
    ensures var r := CalculateWheelSlices(choices);
            i < |r| && r[i].text == choices[i].text && r[i].color == GetValidColor(i)
  {
    WheelSliceCount(choices);
    WheelSliceShowsChoice(choices, i);
    SmallMod(i, |choices|);
  }

  /** Below six choices, choice i is shown twice: by slice i and by slice
      n + i, half a turn further on, with the same text and colour. */
  lemma DuplicatesAreOpposite(choices: seq<Choice>, i: nat)
    requires 2 <= |choices| < MIN_CHOICES_FOR_SINGLE_SLICES && i < |choices|
    ensures var r := CalculateWheelSlices(choices);
            var n := |choices|;
            |r| == 2 * n
            && r[i].text == r[n + i].text == choices[i].text
            && r[i].color == r[n + i].color == GetValidColor(i)
            && r[n + i].rotate == r[i].rotate + 180.0
  {
    CalculateWheelSlicesIsTiled(choices);
    TiledDuplicatesOpposite(choices, i);
  }

  lemma TiledDuplicatesOpposite(choices: seq<Choice>, i: nat)
    requires 2 <= |choices| < MIN_CHOICES_FOR_SINGLE_SLICES && i < |choices|
    ensures var w := TiledWheel(choices);
            var n := |choices|;
            |w| == 2 * n
            && w[i].text == w[n + i].text == choices[i].text
            && w[i].color == w[n + i].color == GetValidColor(i)
            && w[n + i].rotate == w[i].rotate + 180.0
  {
    var n := |choices|;
    var a := FullTurn / (2 * n) as real;
    var x := i as real * a;
    var y := (n + i) as real * a;
    FewTiledAt(choices, i, n + i, a, x, y, TiledWheel(choices));
    HalfTurnApart(n, i, a);
  }

  lemma HalfTurnApart(n: nat, i: nat, a: real)
    requires 0 < n && a == FullTurn / (2 * n) as real
    ensures (n + i) as real * a == i as real * a + 180.0
  {
    UnitAngle(2 * n);
    assert a * n as real == 180.0;
    assert (n + i) as real * a == n as real * a + i as real * a;
  }

  /** A lone choice fills the whole wheel with the first palette colour. */
  lemma SingleChoiceWheel(t: string)
    ensures CalculateWheelSlices([Choice(t)]) == [Slice(t, COLORS[0], 0.0, FullTurn)]
  {
    var choices := [Choice(t)];
    CalculateWheelSlicesIsTiled(choices);
    var w := TiledWheel(choices);
    TiledAt(choices, 0);
  }

  /** Two choices make four quarter slices, alternating between them. */
  lemma TwoChoiceWheel(x: string, y: string)
    ensures CalculateWheelSlices([Choice(x), Choice(y)])
            == [Slice(x, COLORS[0], 0.0, 90.0), Slice(y, COLORS[1], 90.0, 90.0),
                Slice(x, COLORS[0], 180.0, 90.0), Slice(y, COLORS[1], 270.0, 90.0)]
  {
    TwoChoiceSorted([Choice(x), Choice(y)]);
  }

  /** The same for any list of two choices. */
  lemma TwoChoiceSorted(choices: seq<Choice>)
    requires |choices| == 2
    ensures CalculateWheelSlices(choices)
            == [Slice(choices[0].text, COLORS[0], 0.0, 90.0), Slice(choices[1].text, COLORS[1], 90.0, 90.0),
                Slice(choices[0].text, COLORS[0], 180.0, 90.0), Slice(choices[1].text, COLORS[1], 270.0, 90.0)]
  {
    CalculateWheelSlicesIsTiled(choices);
    TwoChoiceTiled(choices);
  }

  /** The reference wheel of two choices. */
  lemma TwoChoiceTiled(choices: seq<Choice>)
    requires |choices| == 2
    ensures TiledWheel(choices)
            == [Slice(choices[0].text, COLORS[0], 0.0, 90.0), Slice(choices[1].text, COLORS[1], 90.0, 90.0),
                Slice(choices[0].text, COLORS[0], 180.0, 90.0), Slice(choices[1].text, COLORS[1], 270.0, 90.0)]
  {
    var w := TiledWheel(choices);
    assert |w| == 4;
    TiledAt(choices, 0);
    TiledAt(choices, 1);
    TiledAt(choices, 2);
    TiledAt(choices, 3);
  }

  /** No choices, no slices. */
  lemma EmptyWheel()
    ensures CalculateWheelSlices([]) == []
  {
  }
}

=== FILE: legacy.dfy ===
/** The pure core of the standalone script `wheel.js`: its own copy of the
    slice generator, which places each duplicate at `cursor + 180` without
    reducing it and does not sort, its choice constructor, and
    `calculateSpinResult`, which reads the winner off the slice list by
    index. `getValidColor` and `prepareWheelData` in that script are the
    same as the library's and are shared with `Palette` and `Builder`. */
module Legacy {
  import opened Angles
  import opened Palette
  import opened Choices
  import opened Sequences
  import opened Builder
  import opened Resolver
  import opened Winner
  import Layout

  // ---------------------------------------------------------------------
  // createChoice
  // ---------------------------------------------------------------------

  /** The script's choice record, with its inline-editing state. */
  datatype LegacyChoice = LegacyChoice(text: string, editing: bool, editValue: string)

  /** `createChoice`: the trimmed text, not being edited, with the edit box
      preloaded with the same trimmed text. */
  function CreateLegacyChoice(text: string): (c: LegacyChoice)
    ensures c.text == CreateChoice(text).text
    ensures !c.editing && c.editValue == c.text
    ensures |c.text| > 0 ==> !IsTrimmable(c.text[0]) && !IsTrimmable(c.text[|c.text| - 1])
  {
    LegacyChoice(Trim(text), false, Trim(text))
  }

  /** Re-creating a choice from its own text changes nothing. */
  lemma CreateLegacyChoiceIdempotent(text: string)
    ensures CreateLegacyChoice(CreateLegacyChoice(text).text) == CreateLegacyChoice(text)
  {
    TrimIdempotent(text);
  }

  // ---------------------------------------------------------------------
  // generateWheelSlices and calculateWheelSlices of the script
  // ---------------------------------------------------------------------

  /** The script's `forEach`: like the library's, except that a duplicate is
      placed at `cursor + 180` with no `% 360`. */
  function LegacyGenerateFrom(items: seq<WheelItem>, cursor: real, angle: real): (slices: seq<Slice>)
    ensures forall k :: 0 <= k < |slices| ==> slices[k].sliceAngle == angle
    ensures OccursOnceOrTwice(items) ==> |slices| == TotalOccurrences(items)
  {
    if |items| == 0 then []
    else
      var item := items[0];
      assert OccursOnceOrTwice(items) ==> OccursOnceOrTwice(items[1..]) by {
        if OccursOnceOrTwice(items) {
          forall i | 0 <= i < |items[1..]| ensures 1 <= items[1..][i].occurrences <= 2 {
            assert items[1..][i] == items[i + 1];
          }
        }
      }
      if item.occurrences == 1 then
        [Slice(item.text, item.color, cursor, angle)]
          + LegacyGenerateFrom(items[1..], cursor + angle, angle)
      else if item.occurrences == 2 then
        [Slice(item.text, item.color, cursor, angle),
         Slice(item.text, item.color, cursor + 180.0, angle)]
          + LegacyGenerateFrom(items[1..], cursor + angle, angle)
      else
        LegacyGenerateFrom(items[1..], cursor, angle)
  }

  /** The script's `generateWheelSlices`: as many slices as the items
      request, all `360 / total` wide, and, when no item is duplicated,
      exactly the library's slices. */
  function LegacyGenerateWheelSlices(items: seq<WheelItem>): (slices: seq<Slice>)
    ensures OccursOnceOrTwice(items) ==> |slices| == TotalOccurrences(items)
    ensures forall k :: 0 <= k < |slices| ==>
              slices[k].sliceAngle == SliceAngleFor(TotalOccurrences(items))
    ensures (forall i :: 0 <= i < |items| ==> items[i].occurrences == 1) ==>
              slices == GenerateWheelSlices(items)
  {
    var angle := SliceAngleFor(TotalOccurrences(items));
    SinglesAgree(items, 0.0, angle);
    LegacyGenerateFrom(items, 0.0, angle)
  }

  /** The script's `calculateWheelSlices`: prepare, generate, repair colours;
      the slices stay in generation order, and they are exactly the slices
      the library generates before its sort. */
  function LegacyCalculateWheelSlices(choices: seq<Choice>): (r: seq<Slice>)
    ensures r == FixColors(GenerateWheelSlices(PrepareWheelData(choices)))
  {
    LegacyGenerationIsLibraryGeneration(choices);
    FixColors(LegacyGenerateWheelSlices(PrepareWheelData(choices)))
  }

  /** Without duplicates the two generators agree. */
  lemma {:induction false} SinglesAgree(items: seq<WheelItem>, cursor: real, angle: real)
    ensures (forall i :: 0 <= i < |items| ==> items[i].occurrences == 1) ==>
              LegacyGenerateFrom(items, cursor, angle) == GenerateFrom(items, cursor, angle)
  {
    if |items| > 0 && forall i :: 0 <= i < |items| ==> items[i].occurrences == 1 {
      assert forall i :: 0 <= i < |items[1..]| ==> items[1..][i] == items[i + 1];
      SinglesAgree(items[1..], cursor + angle, angle);
    }
  }

  /** With duplicates the two generators agree as long as every original
      lies below 180 degrees, so that no duplicate reaches a full turn. */
  lemma {:induction false} PairsAgree(items: seq<WheelItem>, cursor: real, angle: real)
    requires forall i :: 0 <= i < |items| ==> items[i].occurrences == 2
    requires 0.0 <= cursor && 0.0 <= angle
    requires |items| > 0 ==> cursor + (|items| - 1) as real * angle < 180.0
    ensures LegacyGenerateFrom(items, cursor, angle) == GenerateFrom(items, cursor, angle)
  {
    if |items| > 0 {
      assert Rem360(cursor + 180.0) == cursor + 180.0;
      if |items| > 1 {
        assert (cursor + angle) + (|items| - 2) as real * angle == cursor + (|items| - 1) as real * angle;
      }
      PairsAgree(items[1..], cursor + angle, angle);
    }
  }

  /** For two to five choices the last original starts below 180 degrees. */
  lemma LastOriginalBelowHalfTurn(n: nat, a: real)
    requires 2 <= n && a == FullTurn / (2 * n) as real
    ensures (n - 1) as real * a < 180.0
  {
    Layout.HalfTurnApart(n, 0, a);
    UnitAngle(2 * n);
    OneStepBelow(n, a, 180.0);
  }

  lemma OneStepBelow(n: nat, a: real, x: real)
    requires n >= 1 && a > 0.0 && n as real * a == x
    ensures (n - 1) as real * a < x
  {
    assert (n - 1) as real * a == n as real * a - a;
  }

  /** On prepared choices the script's generator emits exactly the
      library's slices: the unreduced `cursor + 180` never reaches 360,
      because every duplicated original lies in the first half turn. */
  lemma LegacyGenerationIsLibraryGeneration(choices: seq<Choice>)
    ensures LegacyGenerateWheelSlices(PrepareWheelData(choices))
            == GenerateWheelSlices(PrepareWheelData(choices))
  {
    var n := |choices|;
    var items := PrepareWheelData(choices);
    var a := SliceAngleFor(TotalOccurrences(items));
    if n == 1 || n >= MIN_CHOICES_FOR_SINGLE_SLICES {
      SinglesAgree(items, 0.0, a);
    } else if n >= 2 {
      TotalUniform(items, 2);
      assert a == FullTurn / (2 * n) as real;
      LastOriginalBelowHalfTurn(n, a);
      PairsAgree(items, 0.0, a);
    }
  }

  /** The script's wheel holds the same slices as the library's wheel, in
      another order. */
  lemma LegacySameSlicesAsLibrary(choices: seq<Choice>)
    ensures multiset(LegacyCalculateWheelSlices(choices)) == multiset(CalculateWheelSlices(choices))
  {
    LegacyGenerationIsLibraryGeneration(choices);
  }

  /** For one choice or six and more the script's order is already the
      sorted order: its wheel is the library's. */
  lemma LegacyIsLibraryWhenUnduplicated(choices: seq<Choice>)
    requires |choices| <= 1 || |choices| >= MIN_CHOICES_FOR_SINGLE_SLICES
    ensures LegacyCalculateWheelSlices(choices) == CalculateWheelSlices(choices)
  {
    LegacyGenerationIsLibraryGeneration(choices);
    CalculateWheelSlicesIsTiled(choices);
    if |choices| >= MIN_CHOICES_FOR_SINGLE_SLICES {
      GeneratedManyIsTiled(choices);
    } else if |choices| == 1 {
      SingleGeneratedIsTiled(choices);
    }
  }

  lemma SingleGeneratedIsTiled(choices: seq<Choice>)
    requires |choices| == 1
    ensures FixColors(GenerateWheelSlices(PrepareWheelData(choices))) == TiledWheel(choices)
  {
    var w := TiledWheel(choices);
    var items := PrepareWheelData(choices);
    var g := GenerateWheelSlices(items);
    GenerateSingleAt(items, 0.0, FullTurn, 0);
    FixColorsKeepsPalette(g);
    TiledAt(choices, 0);
  }

  /** For two to five choices the script keeps generation order: each
      original is followed by its duplicate, so slice 2i is reference slice
      i and slice 2i+1 is reference slice n + i. */
  lemma LegacyFewIsInterleaved(choices: seq<Choice>)
    requires 2 <= |choices| < MIN_CHOICES_FOR_SINGLE_SLICES
    ensures var n := |choices|;
            var w := CalculateWheelSlices(choices);
            |w| == 2 * n && LegacyCalculateWheelSlices(choices) == Interleave(w[..n], w[n..])
  {
    LegacyGenerationIsLibraryGeneration(choices);
    GeneratedFewIsInterleaved(choices);
    CalculateWheelSlicesIsTiled(choices);
  }

  // ---------------------------------------------------------------------
  // calculateSpinResult
  // ---------------------------------------------------------------------

  /** `(360 - rotation % 360) % 360`: the angle of the unrotated wheel that
      the rotation brings under the indicator, which is the opposite rotation
      normalised into [0, 360). */
  function SpinAngle(rotation: real): (v: real)
    ensures 0.0 <= v < FullTurn
    ensures v == NormAngle(Opposite(rotation))
  {
    var m := Rem360(rotation);
    var v := Rem360(FullTurn - m);
    assert Opposite(rotation) == v + FullTurn * (Trunc((FullTurn - m) / FullTurn) - Trunc(rotation / FullTurn) - 1) as real;
    NormAngleUnique(Opposite(rotation), v, Trunc((FullTurn - m) / FullTurn) - Trunc(rotation / FullTurn) - 1);
    v
  }

  /** JavaScript's `%` on integers, which truncates: the remainder takes
      the sign of the dividend, so a negative dividend gives 0 exactly on a
      multiple of n. */
  function TruncRem(a: int, n: int): (r: int)
    requires n > 0
    ensures -n < r < n
    ensures a >= 0 ==> r == a % n
    ensures a < 0 ==> r <= 0 && (r == 0 <==> (-a) % n == 0)
  {
    if a >= 0 then a % n else -((-a) % n)
  }

  /** The index expression `Math.floor(angle / sliceAngle) % length` of
      `calculateSpinResult`, for a non-zero first width. */
  function SpinIndex(rotation: real, slices: seq<Slice>): (i: int)
    requires |slices| > 0 && slices[0].sliceAngle != 0.0
    ensures -|slices| < i < |slices|
    ensures slices[0].sliceAngle > 0.0 ==>
              i == FloorDiv(NormAngle(Opposite(rotation)), slices[0].sliceAngle) % |slices|
    ensures slices[0].sliceAngle < 0.0 ==> i <= 0
  {
    var v := SpinAngle(rotation);
    var w := slices[0].sliceAngle;
    FloorSign(v, w);
    TruncRem((v / w).Floor, |slices|)
  }

  /** The floor of a non-negative angle over a width has the width's sign. */
  lemma FloorSign(v: real, w: real)
    requires v >= 0.0 && w != 0.0
    ensures w > 0.0 ==> (v / w).Floor >= 0
    ensures w < 0.0 ==> (v / w).Floor <= 0
  {
    if w > 0.0 {
      FloorScale(v, w);
    } else {
      assert v / w <= 0.0 by {
        assert v / w == -(v / (-w));
        assert v / (-w) >= 0.0;
      }
    }
  }

  /** The inputs on which `calculateSpinResult` returns a text: no slices,
      a lone full slice, or a non-zero first width whose index is not
      negative. A negative first width gives a floor of 0 or below, and the
      truncating `%` keeps that sign, so only a multiple of the length
      survives; it is JavaScript's -0, which reads slice 0. A zero width
      makes the quotient NaN or Infinity, whose index reads nothing. On
      those lists the script reads `.text` of `undefined`. */
  predicate SpinDefined(rotation: real, slices: seq<Slice>)
  {
    |slices| == 0 || (|slices| == 1 && slices[0].sliceAngle == FullTurn)
    || (slices[0].sliceAngle != 0.0 && SpinIndex(rotation, slices) >= 0)
  }

  /** The slice `calculateSpinResult` reads: the lone full slice, or the
      slice at `floor(angle / sliceAngle) % length`, the position the angle
      would have if slice k spanned [k * sliceAngle, (k + 1) * sliceAngle).
      A negative first width can only ever read slice 0. */
  function SpinPick(rotation: real, slices: seq<Slice>): (k: nat)
    requires |slices| > 0 && SpinDefined(rotation, slices)
    ensures k < |slices|
    ensures |slices| == 1 ==> k == 0
    ensures slices[0].sliceAngle > 0.0 ==>
              k == FloorDiv(NormAngle(Opposite(rotation)), slices[0].sliceAngle) % |slices|
    ensures slices[0].sliceAngle < 0.0 ==> k == 0
  {
    if |slices| == 1 && slices[0].sliceAngle == FullTurn then
      FloorScale(NormAngle(Opposite(rotation)), FullTurn);
      0
    else SpinIndex(rotation, slices)
  }

  /** `calculateSpinResult`: the empty text for no slices, otherwise the
      text of the slice it picks. */
  function CalculateSpinResult(rotation: real, slices: seq<Slice>): (text: string)
    requires SpinDefined(rotation, slices)
    ensures |slices| == 0 ==> text == ""
    ensures |slices| > 0 ==> text == slices[SpinPick(rotation, slices)].text
    ensures |slices| == 1 ==> text == slices[0].text
  {
    if |slices| == 0 then ""
    else if |slices| == 1 && slices[0].sliceAngle == FullTurn then slices[0].text
    else slices[SpinPick(rotation, slices)].text
  }

  /** Whole turns added to the rotation do not change the result. */
  lemma SpinFullTurns(rotation: real, slices: seq<Slice>, k: int)
    requires SpinDefined(rotation, slices)
    ensures SpinDefined(rotation + FullTurn * k as real, slices)
    ensures CalculateSpinResult(rotation + FullTurn * k as real, slices)
            == CalculateSpinResult(rotation, slices)
  {
    assert Opposite(rotation + FullTurn * k as real) == Opposite(rotation) + FullTurn * (-k) as real;
    NormAngleFullTurns(Opposite(rotation), -k);
  }

  /** A lone slice of any non-zero width: every floor leaves remainder 0
      (or -0) modulo 1, so the script answers that slice's text. */
  lemma LoneSliceSpin(rotation: real, s: Slice)
    requires s.sliceAngle != 0.0
    ensures SpinDefined(rotation, [s]) && CalculateSpinResult(rotation, [s]) == s.text
  {
  }

  /** At a whole-turn rotation the angle under the indicator is 0, so any
      non-zero first width reads slice 0, a negative one through -0. */
  lemma WholeTurnSpin(slices: seq<Slice>, k: int)
    requires |slices| > 0 && slices[0].sliceAngle != 0.0
    ensures SpinDefined(FullTurn * k as real, slices)
    ensures CalculateSpinResult(FullTurn * k as real, slices) == slices[0].text
  {
    assert Opposite(FullTurn * k as real) == 0.0 + FullTurn * (-k) as real;
    NormAngleUnique(Opposite(FullTurn * k as real), 0.0, -k);
  }

  /** A negative first width: the script returns a text exactly when the
      floor of angle over width is a multiple of the length, and that text
      is always the first slice's. */
  lemma NegativeWidthSpin(rotation: real, slices: seq<Slice>)
    requires |slices| > 0 && slices[0].sliceAngle < 0.0
    ensures SpinDefined(rotation, slices)
            <==> (-(NormAngle(Opposite(rotation)) / slices[0].sliceAngle).Floor) % |slices| == 0
    ensures SpinDefined(rotation, slices) ==> CalculateSpinResult(rotation, slices) == slices[0].text
  {
    FloorSign(NormAngle(Opposite(rotation)), slices[0].sliceAngle);
  }

  /** A zero first width gives no text: the quotient is NaN or Infinity. */
  lemma ZeroWidthUndefined(rotation: real, slices: seq<Slice>)
    requires |slices| > 0 && slices[0].sliceAngle == 0.0
    ensures !SpinDefined(rotation, slices)
  {
  }

  /** Two slices whose first width is -90, at rotation 270: the angle 90
      over -90 floors to -1, whose truncated remainder modulo 2 is -1, an
      index that reads nothing. */
  lemma NegativeWidthCanFail(a: Slice, b: Slice)
    requires a.sliceAngle == -90.0
    ensures !SpinDefined(270.0, [a, b])
  {
    ThreeQuarterTurnIsQuarterAngle();
    assert 90.0 / -90.0 == -1.0;
  }

  /** Every wheel the library builds is a valid input. */
  lemma WheelSpinDefined(choices: seq<Choice>, rotation: real)
    ensures SpinDefined(rotation, CalculateWheelSlices(choices))
  {
    CalculateWheelSlicesIsTiled(choices);
    if |choices| > 0 {
      var w := TiledWheel(choices);
      TiledWheelUniform(choices, w, |w|, FullTurn / |w| as real);
      PositiveWidthDefined(rotation, w);
    }
  }

  /** A positive first width always gives a valid index. */
  lemma PositiveWidthDefined(rotation: real, slices: seq<Slice>)
    requires |slices| > 0 && slices[0].sliceAngle > 0.0
    ensures SpinDefined(rotation, slices)
  {
    FloorScale(NormAngle(Opposite(rotation)), slices[0].sliceAngle);
  }

  /** The spin formula applied to the angle-sorted wheel: the slice it picks
      is the test suite's answer at the opposite rotation, and its unrotated
      arc [rotate, rotate + width) holds the angle under the indicator. */
  function CalculateSpinResultSorted(rotation: real, choices: seq<Choice>): (text: string)
    ensures |choices| == 0 ==> text == ""
    ensures |choices| > 0 ==> text == GetSliceAtIndicator(CalculateWheelSlices(choices), Opposite(rotation)).text
  {
    SortedSpinIsTestAnswer(choices, rotation);
    CalculateSpinResult(rotation, CalculateWheelSlices(choices))
  }

  lemma SortedSpinIsTestAnswer(choices: seq<Choice>, rotation: real)
    ensures SpinDefined(rotation, CalculateWheelSlices(choices))
    ensures |choices| > 0 ==>
              var r := CalculateWheelSlices(choices);
              |r| > 0
              && var k := SpinPick(rotation, r);
                 k == GetSliceAtIndicator(r, Opposite(rotation)).index
                 && r[k].rotate <= NormAngle(Opposite(rotation)) < r[k].rotate + r[k].sliceAngle
  {
    WheelSpinDefined(choices, rotation);
    if |choices| > 0 {
      CalculateWheelSlicesIsTiled(choices);
      TiledSpinIsTestAnswer(choices, rotation);
    }
  }

  lemma TiledSpinIsTestAnswer(choices: seq<Choice>, rotation: real)
    requires |choices| > 0 && SpinDefined(rotation, TiledWheel(choices))
    ensures var w := TiledWheel(choices);
            var k := SpinPick(rotation, w);
            k == GetSliceAtIndicator(w, Opposite(rotation)).index
            && w[k].rotate <= NormAngle(Opposite(rotation)) < w[k].rotate + w[k].sliceAngle
  {
    var w := TiledWheel(choices);
    if |w| == 1 {
      TiledAt(choices, 0);
    } else {
      TiledSpinMany(choices, rotation, w);
    }
  }

  lemma TiledSpinMany(choices: seq<Choice>, rotation: real, w: seq<Slice>)
    requires w == TiledWheel(choices) && |w| >= 2
    ensures SpinDefined(rotation, w)
    ensures var k := SpinPick(rotation, w);
            k == GetSliceAtIndicator(w, Opposite(rotation)).index
            && w[k].rotate <= NormAngle(Opposite(rotation)) < w[k].rotate + w[k].sliceAngle
  {
    var m := |w|;
    var a := FullTurn / m as real;
    var v := NormAngle(Opposite(rotation));
    var k := FloorDiv(v, a);
    TiledWheelUniform(choices, w, m, a);
    UniformSpinPick(rotation, w, a, v, k);
    assert GetSliceAtIndicator(w, Opposite(rotation)).index == k by {
      WrapIsNormAngle(Opposite(rotation));
      TiledWinner(choices, Opposite(rotation));
    }
  }

  /** On a wheel of m >= 2 equal slices laid out from 0 the spin formula
      picks the slice whose arc holds the angle under the indicator. */
  lemma UniformSpinPick(rotation: real, s: seq<Slice>, a: real, v: real, k: int)
    requires |s| >= 2 && a == FullTurn / |s| as real && Uniform(s, a)
    requires v == NormAngle(Opposite(rotation)) && k == FloorDiv(v, a)
    ensures 0 <= k < |s| && k == SliceUnder(v, |s|)
    ensures SpinDefined(rotation, s) && SpinPick(rotation, s) == k
    ensures s[k].rotate <= v < s[k].rotate + s[k].sliceAngle
  {
    UnitAngle(|s|);
    SliceUnderInRange(v, |s|);
    FloorScale(v, a);
    SmallMod(k, |s|);
  }

  /** For one choice or six and more the script's result is the test
      suite's answer at the opposite rotation. */
  lemma LegacySpinWhenUnduplicated(choices: seq<Choice>, rotation: real)
    requires |choices| == 1 || |choices| >= MIN_CHOICES_FOR_SINGLE_SLICES
    ensures SpinDefined(rotation, LegacyCalculateWheelSlices(choices))
    ensures CalculateSpinResult(rotation, LegacyCalculateWheelSlices(choices))
            == CalculateSpinResultSorted(rotation, choices)
  {
    LegacyIsLibraryWhenUnduplicated(choices);
    WheelSpinDefined(choices, rotation);
  }

  /** Two choices turned by 270 degrees: the indicator is over angle 90 of
      the unrotated wheel, which lies in slice [90, 180) showing y. The
      script reads position 1 of its unsorted list, which holds x's
      duplicate at [180, 270), an arc that starts after the angle under the
      indicator, and answers x. */
  lemma LegacySpinMisreadsTwoChoices(x: string, y: string)
    ensures var s := LegacyCalculateWheelSlices([Choice(x), Choice(y)]);
            |s| == 4 && SpinDefined(270.0, s)
            && SpinPick(270.0, s) == 1
            && s[1].rotate == 180.0 && s[1].sliceAngle == 90.0
            && NormAngle(-270.0) == 90.0 < s[1].rotate
            && CalculateSpinResult(270.0, s) == x
    ensures CalculateSpinResultSorted(270.0, [Choice(x), Choice(y)]) == y
  {
    var choices := [Choice(x), Choice(y)];
    var s := LegacyCalculateWheelSlices(choices);
    assert |s| == 4 && s[0].sliceAngle == 90.0 && s[1] == Slice(x, COLORS[0], 180.0, 90.0) by {
      var w := CalculateWheelSlices(choices);
      Layout.TwoChoiceWheel(x, y);
      LegacyFewIsInterleaved(choices);
      InterleaveAt(w[..2], w[2..], 0);
    }
    ThreeQuarterTurnIsQuarterAngle();
    QuarterSlicesAtThreeQuarterTurn(s);
    SortedTwoChoicesAtThreeQuarterTurn(x, y);
  }

  lemma ThreeQuarterTurnIsQuarterAngle()
    ensures NormAngle(-270.0) == 90.0
  {
    NormAngleUnique(-270.0, 90.0, -1);
  }

  /** On any list of four quarter slices, the spin formula at 270 degrees
      reads position 1. */
  lemma QuarterSlicesAtThreeQuarterTurn(s: seq<Slice>)
    requires |s| == 4 && s[0].sliceAngle == 90.0
    ensures SpinDefined(270.0, s) && SpinPick(270.0, s) == 1
  {
    ThreeQuarterTurnIsQuarterAngle();
    assert FloorDiv(90.0, 90.0) == 1;
  }

  /** On the sorted two-choice wheel the same rotation lands on y. */
  lemma SortedTwoChoicesAtThreeQuarterTurn(x: string, y: string)
    ensures CalculateSpinResultSorted(270.0, [Choice(x), Choice(y)]) == y
  {
    SortedSpinOnTwoChoices([Choice(x), Choice(y)]);
  }

  /** The sorted wheel of any two choices: the spin at 270 degrees reads the
      quarter slice at [90, 180), which shows the second choice. */
  lemma SortedSpinOnTwoChoices(choices: seq<Choice>)
    requires |choices| == 2
    ensures CalculateSpinResultSorted(270.0, choices) == choices[1].text
  {
    var w := CalculateWheelSlices(choices);
    Layout.TwoChoiceSorted(choices);
    QuarterSlicesAtThreeQuarterTurn(w);
  }

  /** The script's result for two to five choices, in general: with k the
      slice under the indicator on the sorted wheel, the script answers
      choice k / 2 rather than choice k mod n, because position k of its
      unsorted list holds the original or the duplicate of choice k / 2. */
  lemma LegacySpinOnFewChoices(choices: seq<Choice>, rotation: real)
    requires 2 <= |choices| < MIN_CHOICES_FOR_SINGLE_SLICES
    ensures var s := LegacyCalculateWheelSlices(choices);
            var k := SliceUnder(NormAngle(Opposite(rotation)), 2 * |choices|);
            0 <= k < 2 * |choices| && SpinDefined(rotation, s)
            && CalculateSpinResult(rotation, s) == choices[k / 2].text
  {
    var n := |choices|;
    var w := CalculateWheelSlices(choices);
    var s := LegacyCalculateWheelSlices(choices);
    var v := NormAngle(Opposite(rotation));
    var k := SliceUnder(v, 2 * n);
    assert |w| == 2 * n && s == Interleave(w[..n], w[n..]) by {
      LegacyFewIsInterleaved(choices);
    }
    SliceUnderInRange(v, 2 * n);
    LegacyFewSlice(choices, w, s, k);
    UnitAngle(2 * n);
    SmallMod(k, 2 * n);
  }

  /** Position k of the script's list for two to five choices shows choice
      k / 2; every slice is 360 / 2n wide. */
  lemma LegacyFewSlice(choices: seq<Choice>, w: seq<Slice>, s: seq<Slice>, k: nat)
    requires 2 <= |choices| < MIN_CHOICES_FOR_SINGLE_SLICES
    requires w == CalculateWheelSlices(choices) && |w| == 2 * |choices|
    requires s == Interleave(w[..|choices|], w[|choices|..]) && k < 2 * |choices|
    ensures |s| == 2 * |choices|
    ensures s[0].sliceAngle == FullTurn / (2 * |choices|) as real
    ensures s[k].text == choices[k / 2].text
  {
    var n := |choices|;
    var i := k / 2;
    CalculateWheelSlicesIsTiled(choices);
    InterleaveAt(w[..n], w[n..], 0);
    InterleaveAt(w[..n], w[n..], i);
    TiledAt(choices, 0);
    TiledAt(choices, i);
    TiledAt(choices, n + i);
    assert w[..n][0] == w[0] && w[..n][i] == w[i] && w[n..][i] == w[n + i];
    if k % 2 == 0 {
      assert k == 2 * i;
    } else {
      assert k == 2 * i + 1;
    }
  }

  /** The corrected result for any non-empty choice list: with k the slice
      under the indicator on the sorted wheel, it answers choice k mod n. */
  lemma SortedSpinOnChoices(choices: seq<Choice>, rotation: real)
    requires |choices| > 0
    ensures var m := SliceCount(|choices|);
            var k := SliceUnder(NormAngle(Opposite(rotation)), m);
            m > 0 && 0 <= k < m
            && CalculateSpinResultSorted(rotation, choices) == choices[k % |choices|].text
  {
    var m := SliceCount(|choices|);
    var r := CalculateWheelSlices(choices);
    var v := NormAngle(Opposite(rotation));
    var k := SliceUnder(v, m);
    assert |r| == m by {
      Layout.WheelSliceCount(choices);
    }
    SliceUnderInRange(v, m);
    assert GetSliceAtIndicator(r, Opposite(rotation)).index == k by {
      if m >= 2 {
        WrapIsNormAngle(Opposite(rotation));
        WheelWinnerUnique(choices, Opposite(rotation));
      }
    }
    assert CalculateSpinResultSorted(rotation, choices) == r[k].text;
    Layout.WheelSliceShowsChoice(choices, k);
  }
}

=== FILE: palette.dfy ===
/** The fixed slice palette and the colour picker shared by the library
    (`src/utils/wheelUtils.js`) and the legacy script (`wheel.js`), whose
    `getValidColor` bodies are the same text. */
module Palette {

  /** The twelve slice colours, in order. */
  const COLORS: seq<string> := [
    "#16a34a", "#0ea5e9", "#6366f1", "#8b5cf6",
    "#ec4899", "#f43f5e", "#fb923c", "#fbbf24",
    "#84cc16", "#10b981", "#06b6d4", "#3b82f6"
  ]

  /** The colour used when the palette cannot supply one. */
  const DEFAULT_COLOR: string := "#6366f1"

  function Max0(i: int): nat
  {
    if i < 0 then 0 else i
  }

  /** A colour string JavaScript treats as falsy: only the empty string. */
  predicate IsFalsy(c: string)
  {
    c == ""
  }

  /** `getValidColor` over an arbitrary palette: an empty palette or an empty
      entry falls back to the default colour; a negative index is clamped to 0;
      the index cycles through the palette. */
  function ColorFrom(palette: seq<string>, index: int): (c: string)
    ensures |palette| == 0 ==> c == DEFAULT_COLOR
    ensures c == DEFAULT_COLOR || c in palette
    ensures c != ""
    ensures |palette| > 0 && !IsFalsy(palette[Max0(index) % |palette|])
            ==> c == palette[Max0(index) % |palette|]
  {
    if |palette| == 0 then DEFAULT_COLOR
    else
      var entry := palette[Max0(index) % |palette|];
      if IsFalsy(entry) then DEFAULT_COLOR else entry
  }

  /** The source's `getValidColor(index)` with its own palette, whose
      twelve entries are all non-empty: the index clamped at 0, taken modulo
      the palette length. GetValidColorIsColorFrom shows this is the full
      algorithm with its fallbacks. */
  function GetValidColor(index: int): (c: string)
    ensures c in COLORS
    ensures index <= 0 ==> c == COLORS[0]
    ensures 0 <= index < |COLORS| ==> c == COLORS[index]
  {
    PaletteIndex(index);
    COLORS[Max0(index) % 12]
  }

  /** The entry `getValidColor` reads is a non-empty palette entry, and it
      is entry `index` itself for indices inside the palette. */
  lemma PaletteIndex(index: int)
    ensures var j := Max0(index) % |COLORS|;
            0 <= j < |COLORS| && !IsFalsy(COLORS[j]) && COLORS[j] in COLORS
            && (0 <= index < |COLORS| ==> j == index)
            && (index <= 0 ==> j == 0)
  {
    var j := Max0(index) % 12;
    PaletteHasNoBlank(j);
    if 0 <= index < 12 {
      SmallMod(index, 12);
    }
  }

  /** The palette's colour is what the general algorithm computes on it:
      the empty-palette and empty-entry fallbacks never fire. */
  lemma GetValidColorIsColorFrom(index: int)
    ensures GetValidColor(index) == ColorFrom(COLORS, index)
  {
    PaletteIndex(index);
  }

  lemma SmallMod(i: nat, n: nat)
    requires i < n
    ensures i % n == i
  {
  }

  lemma PaletteHasNoBlank(j: nat)
    requires j < |COLORS|
    ensures |COLORS| == 12 && !IsFalsy(COLORS[j]) && COLORS[j] in COLORS
  {
  }

  /** The colour index cycles with the palette's period. */
  lemma GetValidColorPeriodic(i: nat, k: nat)
    ensures GetValidColor(i + k * |COLORS|) == GetValidColor(i)
    ensures GetValidColor(i) == COLORS[i % |COLORS|]
  {
    ModAddPeriods(i, k);
    PaletteHasNoBlank(i % 12);
  }

  lemma {:induction false} ModAddPeriods(i: nat, k: nat)
    ensures (i + k * 12) % 12 == i % 12
  {
    if k > 0 {
      ModAddPeriods(i, k - 1);
      assert i + k * 12 == (i + (k - 1) * 12) + 12;
    }
  }

  /** No palette entry is one the slice builder's colour check would replace. */
  lemma PaletteEntriesAreValid(c: string)
    requires c in COLORS
    ensures c != "" && c != "undefined"
  {
  }
}

=== FILE: resolver.dfy ===
/** The winner resolver of the rotation test suite
    (`src/__tests__/utils/testUtils.js`): a slice's start is carried to
    `rotate - rotation`, normalised into [0, 360), and the slice wins when the
    indicator at 0 degrees lies in it under the suite's boundary rule. The
    first winning slice in list order is returned. */
module Resolver {
  import opened Angles
  import opened Palette
  import opened Choices
  import opened Builder

  /** The `{ text, index }` object the resolver returns. */
  datatype Pick = Pick(text: string, index: int)

  /** The `{ startAngle, endAngle }` object of `calculateSlicePosition`. */
  datatype Arc = Arc(startAngle: real, endAngle: real)

  /** A start angle moved against the rotation and normalised with the
      source's `% 360` followed by `+ 360` when negative. */
  function RotatedStart(slice: Slice, rotation: real): (t: real)
    ensures 0.0 <= t < FullTurn
    ensures t == NormAngle(slice.rotate - rotation)
  {
    WrapIsNormAngle(slice.rotate - rotation);
    Wrap(slice.rotate - rotation)
  }

  /** The half-open arc [t, t + a) with t in [0, 360) passes over the
      indicator: it starts exactly there or runs past a full turn. */
  predicate ArcHoldsIndicator(t: real, a: real)
  {
    t == 0.0 || t + a > FullTurn
  }

  /** The boundary rule shared by every copy of the resolver: when the
      rotated slice does not cross 0 it must start exactly at 0 and end after
      it; when it does cross, it must start at 0 or end after 0. On angles
      already in [0, 360) this means the end lies strictly after 0 and the
      arc either starts at 0 or wraps past a full turn. */
  function CoversIndicator(start: real, end: real): (b: bool)
    ensures 0.0 <= start < FullTurn && 0.0 <= end < FullTurn ==>
              (b <==> 0.0 < end && (start == 0.0 || end < start))
  {
    if start <= end then 0.0 >= start && 0.0 < end
    else 0.0 >= start || 0.0 < end
  }

  /** For a start in [0, 360) and a width strictly between 0 and a full
      turn, the boundary rule on the start and the `% 360` end is membership
      of the indicator in the half-open arc. */
  lemma HalfOpenRule(t: real, a: real)
    ensures 0.0 <= t < FullTurn && 0.0 < a < FullTurn ==>
              (CoversIndicator(t, Rem360(t + a)) <==> ArcHoldsIndicator(t, a))
  {
    if 0.0 <= t < FullTurn && 0.0 < a < FullTurn {
      if t + a < FullTurn {
        assert Rem360(t + a) == t + a;
      } else {
        assert Rem360(t + a) == t + a - FullTurn;
      }
    }
  }

  /** The loop test of `getSliceAtIndicator` against an already normalised
      rotation: below a full turn, the slice's half-open arc moved against
      the rotation holds the indicator. */
  function MatchesAt(slice: Slice, norm: real): (b: bool)
    ensures 0.0 < slice.sliceAngle < FullTurn ==>
              (b <==> ArcHoldsIndicator(NormAngle(slice.rotate - norm), slice.sliceAngle))
  {
    var start := RotatedStart(slice, norm);
    HalfOpenRule(start, slice.sliceAngle);
    CoversIndicator(start, Rem360(start + slice.sliceAngle))
  }

  /** `sliceContainsZeroDegree`: a slice of 360 degrees or more always
      contains the indicator; any other slice is checked with the boundary
      rule against the rotation as given, which below a full turn is
      membership of the indicator in the rotated half-open arc. */
  function SliceContainsZeroDegree(slice: Slice, rotation: real): (b: bool)
    ensures slice.sliceAngle >= FullTurn ==> b
    ensures 0.0 < slice.sliceAngle < FullTurn ==>
              (b <==> ArcHoldsIndicator(NormAngle(slice.rotate - rotation), slice.sliceAngle))
  {
    if slice.sliceAngle >= FullTurn then true
    else
      var start := RotatedStart(slice, rotation);
      HalfOpenRule(start, slice.sliceAngle);
      CoversIndicator(start, Rem360(start + slice.sliceAngle))
  }

  /** `calculateSlicePosition`: the rotated start in [0, 360) and its end,
      which is 360 for a full slice. The end is reduced with `% 360` only,
      with no correction for a negative value, so a negative width whose
      arc runs back past 0 gets an end at or below 0. */
  function SlicePosition(slice: Slice, rotation: real): (p: Arc)
    ensures 0.0 <= p.startAngle < FullTurn
    ensures p.startAngle == NormAngle(slice.rotate - rotation)
    ensures slice.sliceAngle >= FullTurn ==> p.endAngle == FullTurn
    ensures 0.0 <= slice.sliceAngle < FullTurn ==>
              0.0 <= p.endAngle < FullTurn
              && p.endAngle == NormAngle(p.startAngle + slice.sliceAngle)
    ensures slice.sliceAngle < 0.0 ==>
              -FullTurn < p.endAngle < FullTurn
              && (p.startAngle + slice.sliceAngle >= 0.0 ==> p.endAngle == p.startAngle + slice.sliceAngle)
              && (p.startAngle + slice.sliceAngle < 0.0 ==> p.endAngle <= 0.0)
  {
    var start := RotatedStart(slice, rotation);
    if slice.sliceAngle >= FullTurn then Arc(start, FullTurn)
    else Arc(start, Rem360(start + slice.sliceAngle))
  }

  /** A slice at 10 degrees with width -30, unrotated: its end is -20,
      outside [0, 360). */
  lemma NegativeWidthEndBelowZero(text: string, color: string)
    ensures SlicePosition(Slice(text, color, 10.0, -30.0), 0.0) == Arc(10.0, -20.0)
  {
    NormAngleUnique(10.0, 10.0, 0);
  }

  /** The index of the first slice from `from` on that matches, or -1. */
  function FirstMatch(slices: seq<Slice>, norm: real, from: nat): (i: int)
    decreases |slices| - from
    ensures i == -1 || from <= i < |slices|
    ensures i == -1 ==> forall j :: from <= j < |slices| ==> !MatchesAt(slices[j], norm)
    ensures i != -1 ==> MatchesAt(slices[i], norm)
                        && forall j :: from <= j < i ==> !MatchesAt(slices[j], norm)
  {
    if from >= |slices| then -1
    else if MatchesAt(slices[from], norm) then from
    else FirstMatch(slices, norm, from + 1)
  }

  /** `getSliceAtIndicator`: `{ '', -1 }` for no slices, slice 0 for a lone
      slice, otherwise the first slice in list order that contains the
      indicator, and slice 0 when none does. */
  function GetSliceAtIndicator(slices: seq<Slice>, rotation: real): (p: Pick)
    ensures |slices| == 0 ==> p == Pick("", -1)
    ensures |slices| == 1 ==> p == Pick(slices[0].text, 0)
    ensures |slices| >= 2 ==>
              0 <= p.index < |slices| && p.text == slices[p.index].text
              && (forall j :: 0 <= j < p.index ==> !MatchesAt(slices[j], Wrap(rotation)))
              && (MatchesAt(slices[p.index], Wrap(rotation))
                  || (p.index == 0 && forall j :: 0 <= j < |slices| ==> !MatchesAt(slices[j], Wrap(rotation))))
  {
    var norm := Wrap(rotation);
    if |slices| == 0 then Pick("", -1)
    else if |slices| == 1 then Pick(slices[0].text, 0)
    else
      var i := FirstMatch(slices, norm, 0);
      if i == -1 then Pick(slices[0].text, 0) else Pick(slices[i].text, i)
  }

  /** The same resolver written as the loop of the component's inline copy,
      which returns only the index. */
  method InlineSliceAtIndicator(slices: seq<Slice>, rotation: real) returns (index: int)
    ensures index == GetSliceAtIndicator(slices, rotation).index
  {
    if |slices| == 0 {
      return -1;
    }
    if |slices| == 1 {
      return 0;
    }
    var norm := Rem360(rotation);
    if norm < 0.0 {
      norm := norm + FullTurn;
    }
    assert norm == Wrap(rotation);
    var i := 0;
    while i < |slices|
      invariant 0 <= i <= |slices|
      invariant FirstMatch(slices, norm, 0) == FirstMatch(slices, norm, i)
    {
      var slice := slices[i];
      var start := Rem360(slice.rotate - norm);
      if start < 0.0 {
        start := start + FullTurn;
      }
      var end := Rem360(start + slice.sliceAngle);
      InlineTestIsMatch(slice, norm, start, end);
      if start <= end {
        if 0.0 >= start && 0.0 < end {
          return i;
        }
      } else {
        if 0.0 >= start || 0.0 < end {
          return i;
        }
      }
      i := i + 1;
    }
    return 0;
  }

  /** One step of the inline loop computes the resolver's own test. */
  lemma InlineTestIsMatch(slice: Slice, norm: real, start: real, end: real)
    requires start == (if Rem360(slice.rotate - norm) < 0.0 then Rem360(slice.rotate - norm) + FullTurn
                       else Rem360(slice.rotate - norm))
    requires end == Rem360(start + slice.sliceAngle)
    ensures MatchesAt(slice, norm) <==> CoversIndicator(start, end)
  {
  }

  /** `prepareWheelSlices`: trim every text into a choice and build the
      library's wheel. */
  function PrepareWheelSlices(texts: seq<string>): (r: seq<Slice>)
    ensures |r| == SliceCount(|texts|)
  {
    var choices := seq(|texts|, i requires 0 <= i < |texts| => CreateChoice(texts[i]));
    CalculateWheelSlicesIsTiled(choices);
    CalculateWheelSlices(choices)
  }

  // ---------------------------------------------------------------------
  // Rotation invariance
  // ---------------------------------------------------------------------

  /** Whole turns added to the rotation do not change the answer. */
  lemma ResolverFullTurns(slices: seq<Slice>, rotation: real, k: int)
    ensures GetSliceAtIndicator(slices, rotation + FullTurn * k as real)
            == GetSliceAtIndicator(slices, rotation)
  {
    WrapIsNormAngle(rotation);
    WrapIsNormAngle(rotation + FullTurn * k as real);
    NormAngleFullTurns(rotation, k);
  }

  /** A rotation, negative or not, gives the same answer as its normalised
      equivalent in [0, 360). */
  lemma ResolverNormalises(slices: seq<Slice>, rotation: real)
    ensures 0.0 <= Wrap(rotation) < FullTurn
    ensures GetSliceAtIndicator(slices, rotation) == GetSliceAtIndicator(slices, Wrap(rotation))
  {
  }

  /** `sliceContainsZeroDegree` only depends on the rotation modulo 360. */
  lemma ContainsZeroNormalises(slice: Slice, rotation: real)
    ensures SliceContainsZeroDegree(slice, rotation) == SliceContainsZeroDegree(slice, Wrap(rotation))
  {
    RotatedStartNormalises(slice, rotation);
  }

  /** The rotated start only depends on the rotation modulo 360. */
  lemma RotatedStartNormalises(slice: Slice, rotation: real)
    ensures RotatedStart(slice, Wrap(rotation)) == RotatedStart(slice, rotation)
  {
    WrapIsNormAngle(rotation);
    NormAngleOfDifference(slice.rotate, rotation);
  }

  /** `calculateSlicePosition` reports the arc `sliceContainsZeroDegree`
      judges: whole turns added to the rotation do not move it, and below a
      full turn the boundary rule applied to its two ends is that test. */
  lemma SlicePositionAgrees(slice: Slice, rotation: real, k: int)
    ensures SlicePosition(slice, rotation + FullTurn * k as real) == SlicePosition(slice, rotation)
    ensures slice.sliceAngle < FullTurn ==>
              var p := SlicePosition(slice, rotation);
              SliceContainsZeroDegree(slice, rotation) == CoversIndicator(p.startAngle, p.endAngle)
  {
    var r := rotation + FullTurn * k as real;
    assert slice.rotate - r == (slice.rotate - rotation) + FullTurn * (-k) as real;
    NormAngleFullTurns(slice.rotate - rotation, -k);
  }

  /** Below a full turn, the loop's test against the normalised rotation is
      `sliceContainsZeroDegree` against the rotation itself. */
  lemma MatchIsContainment(slice: Slice, rotation: real)
    requires slice.sliceAngle < FullTurn
    ensures MatchesAt(slice, Wrap(rotation)) == SliceContainsZeroDegree(slice, rotation)
  {
    ContainsZeroNormalises(slice, rotation);
  }

  // ---------------------------------------------------------------------
  // What the boundary rule means
  // ---------------------------------------------------------------------

  /** For a slice narrower than a full turn, the boundary rule holds exactly
      when the rotated half-open arc holds the indicator. In particular a
      slice whose rotated end falls exactly on 0 does not hold it. */
  lemma ContainsZeroIsHalfOpen(slice: Slice, rotation: real)
    requires 0.0 < slice.sliceAngle < FullTurn
    ensures SliceContainsZeroDegree(slice, rotation)
            <==> ArcHoldsIndicator(NormAngle(slice.rotate - rotation), slice.sliceAngle)
  {
    var t := RotatedStart(slice, rotation);
    var a := slice.sliceAngle;
    if t + a < FullTurn {
      assert Rem360(t + a) == t + a;
    } else {
      assert Rem360(t + a) == t + a - FullTurn;
    }
  }

  /** A slice of the unrotated wheel that lies within [0, 360) matches the
      normalised rotation u exactly when u falls in [rotate, rotate + width). */
  lemma MatchOnPlacedSlice(slice: Slice, u: real)
    requires 0.0 <= slice.rotate && 0.0 < slice.sliceAngle < FullTurn
    requires slice.rotate + slice.sliceAngle <= FullTurn
    requires 0.0 <= u < FullTurn
    ensures MatchesAt(slice, u) <==> slice.rotate <= u < slice.rotate + slice.sliceAngle
  {
    var r := slice.rotate;
    var a := slice.sliceAngle;
    var t := RotatedStart(slice, u);
    if r >= u {
      assert t == r - u;
    } else {
      assert t == r - u + FullTurn;
    }
    if t + a < FullTurn {
      assert Rem360(t + a) == t + a;
    } else {
      assert Rem360(t + a) == t + a - FullTurn;
    }
  }
}

=== FILE: sequences.dfy ===
/** Small facts about sequences and their multisets used by the slice
    builder's permutation proofs. */
module Sequences {

  /** Alternates two equally long sequences: a0, b0, a1, b1, ... */
  function Interleave<T>(a: seq<T>, b: seq<T>): (r: seq<T>)
    requires |a| == |b|
    ensures |r| == 2 * |a|
  {
    if |a| == 0 then [] else [a[0], b[0]] + Interleave(a[1..], b[1..])
  }

  lemma {:induction false} InterleaveAt<T>(a: seq<T>, b: seq<T>, i: nat)
    requires |a| == |b| && i < |a|
    ensures Interleave(a, b)[2 * i] == a[i]
    ensures Interleave(a, b)[2 * i + 1] == b[i]
  {
    if i > 0 {
      InterleaveAt(a[1..], b[1..], i - 1);
      var t := Interleave(a[1..], b[1..]);
      assert Interleave(a, b) == [a[0], b[0]] + t;
      assert Interleave(a, b)[2 * i] == t[2 * (i - 1)];
      assert Interleave(a, b)[2 * i + 1] == t[2 * (i - 1) + 1];
    }
  }

  lemma MultisetCons<T>(a: seq<T>)
    requires |a| > 0
    ensures multiset(a) == multiset{a[0]} + multiset(a[1..])
  {
    assert a == [a[0]] + a[1..];
  }

  lemma MultisetPairCons<T>(x: T, y: T, t: seq<T>, a: seq<T>, b: seq<T>)
    requires multiset(t) == multiset(a) + multiset(b)
    ensures multiset([x, y] + t) == (multiset{x} + multiset(a)) + (multiset{y} + multiset(b))
  {
  }

  /** Interleaving two sequences keeps exactly their elements. */
  lemma {:induction false} InterleaveMultiset<T>(a: seq<T>, b: seq<T>)
    requires |a| == |b|
    ensures multiset(Interleave(a, b)) == multiset(a) + multiset(b)
  {
    if |a| > 0 {
      InterleaveMultiset(a[1..], b[1..]);
      MultisetCons(a);
      MultisetCons(b);
      MultisetPairCons(a[0], b[0], Interleave(a[1..], b[1..]), a[1..], b[1..]);
    }
  }

  lemma MultisetCancel<T>(x: T, a: multiset<T>, b: multiset<T>)
    requires multiset{x} + a == multiset{x} + b
    ensures a == b
  {
    forall o ensures a[o] == b[o] {
      assert (multiset{x} + a)[o] == (multiset{x} + b)[o];
    }
  }
}

=== FILE: winner.dfy ===
/** The test suite's resolver on the wheels the library builds: because the
    sorted slices tile the circle, exactly one slice holds the indicator for
    every rotation, the resolver finds it, and every result the suite's
    `verifyResult` checks is valid. */
module Winner {
  import opened Angles
  import opened Palette
  import opened Choices
  import opened Builder
  import opened Resolver
  import Layout

  /** How many whole widths `a` fit below u. */
  function FloorDiv(u: real, a: real): int
    requires a > 0.0
  {
    (u / a).Floor
  }

  /** The index of the slice that covers angle u on a wheel of m equal
      slices laid out from 0. */
  function SliceUnder(u: real, m: nat): int
    requires m > 0
  {
    FloorDiv(u, FullTurn / m as real)
  }

  lemma MulNonNeg(x: real, a: real)
    requires x >= 0.0 && a > 0.0
    ensures x * a >= 0.0
  {
  }

  lemma MulPos(x: real, a: real)
    requires x > 0.0 && a > 0.0
    ensures x * a > 0.0
  {
  }

  lemma DivNonNeg(x: real, a: real)
    requires a > 0.0 && x * a >= 0.0
    ensures x >= 0.0
  {
  }

  lemma DivPos(x: real, a: real)
    requires a > 0.0 && x * a > 0.0
    ensures x > 0.0
  {
  }

  lemma ScaleLess(k: int, m: int, a: real)
    requires a > 0.0 && k as real * a < m as real * a
    ensures k < m
  {
    assert (m - k) as real * a == m as real * a - k as real * a;
    DivPos((m - k) as real, a);
  }

  /** The slice under u starts at or before u and ends after it. */
  lemma FloorScale(u: real, a: real)
    requires a > 0.0 && u >= 0.0
    ensures FloorDiv(u, a) >= 0
    ensures FloorDiv(u, a) as real * a <= u < FloorDiv(u, a) as real * a + a
  {
    var q := u / a;
    var k := q.Floor;
    assert k as real <= q < k as real + 1.0;
    assert q * a == u;
    assert (q - k as real) * a == u - k as real * a;
    MulNonNeg(q - k as real, a);
    var d := k as real + 1.0 - q;
    MulPos(d, a);
    assert d * a == k as real * a + a - u;
    assert k as real * a <= u < k as real * a + a;
    assert FloorDiv(u, a) == k;
  }

  /** Only the slice under u covers u. */
  lemma FloorUnique(u: real, a: real, j: int)
    requires a > 0.0 && j as real * a <= u < j as real * a + a
    ensures FloorDiv(u, a) == j
  {
    var q := u / a;
    assert q * a == u;
    assert (q - j as real) * a == u - j as real * a;
    DivNonNeg(q - j as real, a);
    var d := j as real + 1.0 - q;
    assert d * a == j as real * a + a - u;
    DivPos(d, a);
  }

  /** A slice j slice-widths from 0 matches the normalised rotation u
      exactly when j is the slice under u. */
  lemma PlacedMatchIff(slice: Slice, u: real, j: nat, a: real)
    requires 0.0 < a <= 180.0 && slice.rotate == j as real * a && slice.sliceAngle == a
    requires 0.0 <= j as real * a && j as real * a + a <= FullTurn
    requires 0.0 <= u < FullTurn
    ensures MatchesAt(slice, u) <==> j == FloorDiv(u, a)
  {
    MatchOnPlacedSlice(slice, u);
    FloorIff(u, a, j, slice.rotate);
  }

  /** u lies in [j*a, j*a + a) exactly when j is the floor of u / a. */
  lemma FloorIff(u: real, a: real, j: int, x: real)
    requires a > 0.0 && u >= 0.0 && x == j as real * a
    ensures x <= u < x + a <==> j == FloorDiv(u, a)
  {
    if j == FloorDiv(u, a) {
      FloorScale(u, a);
    }
    if x <= u < x + a {
      FloorUnique(u, a, j);
    }
  }

  /** On a reference wheel of two or more slices, slice j holds the
      normalised rotation u exactly when j is the slice under u. */
  lemma TiledMatchIff(choices: seq<Choice>, u: real, j: nat)
    requires |TiledWheel(choices)| >= 2 && 0.0 <= u < FullTurn && j < |TiledWheel(choices)|
    ensures var w := TiledWheel(choices);
            MatchesAt(w[j], u) <==> j == SliceUnder(u, |w|)
  {
    var w := TiledWheel(choices);
    var m := |w|;
    var a := FullTurn / m as real;
    TiledWheelUniform(choices, w, m, a);
    ScaleBelow(j, m, a);
    AtMostHalfTurn(m, a);
    PlacedMatchIff(w[j], u, j, a);
  }

  /** Two or more slices are at most half a turn wide. */
  lemma AtMostHalfTurn(m: nat, a: real)
    requires m >= 2 && a == FullTurn / m as real
    ensures 0.0 < a <= 180.0
  {
    UnitAngle(m);
    MulNonNeg((m - 2) as real, a);
    assert (m - 2) as real * a == m as real * a - 2.0 * a;
  }

  /** The slice under a normalised angle exists on every wheel of m slices. */
  lemma SliceUnderInRange(u: real, m: nat)
    requires m > 0 && 0.0 <= u < FullTurn
    ensures 0 <= SliceUnder(u, m) < m
  {
    var a := FullTurn / m as real;
    UnitAngle(m);
    FloorScale(u, a);
    ScaleLess(FloorDiv(u, a), m, a);
  }

  /** On a reference wheel of two or more slices the resolver returns the
      slice under the normalised rotation, and no other slice holds it. */
  lemma TiledWinner(choices: seq<Choice>, rotation: real)
    requires |TiledWheel(choices)| >= 2
    ensures var w := TiledWheel(choices);
            var k := SliceUnder(Wrap(rotation), |w|);
            0 <= k < |w|
            && GetSliceAtIndicator(w, rotation).index == k
            && forall j :: 0 <= j < |w| && MatchesAt(w[j], Wrap(rotation)) ==> j == k
  {
    var w := TiledWheel(choices);
    var u := Wrap(rotation);
    var k := SliceUnder(u, |w|);
    SliceUnderInRange(u, |w|);
    TiledMatchIff(choices, u, k);
    forall j | 0 <= j < |w| && MatchesAt(w[j], u)
      ensures j == k
    {
      TiledMatchIff(choices, u, j);
    }
    var i := FirstMatch(w, u, 0);
    if i != -1 {
      TiledMatchIff(choices, u, i);
    }
  }

  /** The library's wheel for any non-empty choice list: the resolver's
      answer is a real slice, it contains the indicator, and it shows choice
      `index mod n`. */
  lemma WheelWinner(choices: seq<Choice>, rotation: real)
    requires |choices| > 0
    ensures var r := CalculateWheelSlices(choices);
            var p := GetSliceAtIndicator(r, rotation);
            0 <= p.index < |r|
            && p.text == r[p.index].text == choices[p.index % |choices|].text
            && SliceContainsZeroDegree(r[p.index], rotation)
  {
    CalculateWheelSlicesIsTiled(choices);
    TiledWinnerHolds(choices, rotation);
  }

  /** From two slices on, the resolver's answer on the library's wheel is the
      slice under the normalised rotation and the only slice that contains
      the indicator. */
  lemma WheelWinnerUnique(choices: seq<Choice>, rotation: real)
    requires |CalculateWheelSlices(choices)| >= 2
    ensures var r := CalculateWheelSlices(choices);
            var p := GetSliceAtIndicator(r, rotation);
            p.index == SliceUnder(Wrap(rotation), |r|)
            && forall j :: 0 <= j < |r| && SliceContainsZeroDegree(r[j], rotation) ==> j == p.index
  {
    CalculateWheelSlicesIsTiled(choices);
    TiledWinnerUnique(choices, rotation);
  }

  lemma TiledWinnerHolds(choices: seq<Choice>, rotation: real)
    requires |choices| > 0
    ensures var w := TiledWheel(choices);
            var p := GetSliceAtIndicator(w, rotation);
            0 <= p.index < |w|
            && p.text == w[p.index].text == choices[p.index % |choices|].text
            && SliceContainsZeroDegree(w[p.index], rotation)
  {
    var w := TiledWheel(choices);
    var m := |w|;
    var p := GetSliceAtIndicator(w, rotation);
    if m == 1 {
      TiledAt(choices, 0);
    } else {
      TiledWinner(choices, rotation);
      TiledWinnerContains(choices, rotation, p.index);
    }
  }

  lemma TiledWinnerContains(choices: seq<Choice>, rotation: real, k: nat)
    requires |TiledWheel(choices)| >= 2 && k < |TiledWheel(choices)|
    requires k == GetSliceAtIndicator(TiledWheel(choices), rotation).index
    ensures var w := TiledWheel(choices);
            w[k].text == choices[k % |choices|].text
            && SliceContainsZeroDegree(w[k], rotation)
  {
    var w := TiledWheel(choices);
    var m := |w|;
    var a := FullTurn / m as real;
    TiledShowsChoice(choices, k);
    AtMostHalfTurn(m, a);
    TiledWinner(choices, rotation);
    TiledMatchIff(choices, Wrap(rotation), k);
    assert MatchesAt(w[k], Wrap(rotation));
    MatchIsContainment(w[k], rotation);
  }

  lemma TiledWinnerUnique(choices: seq<Choice>, rotation: real)
    requires |TiledWheel(choices)| >= 2
    ensures var w := TiledWheel(choices);
            var p := GetSliceAtIndicator(w, rotation);
            p.index == SliceUnder(Wrap(rotation), |w|)
            && forall j :: 0 <= j < |w| && SliceContainsZeroDegree(w[j], rotation) ==> j == p.index
  {
    var w := TiledWheel(choices);
    var m := |w|;
    TiledWinner(choices, rotation);
    TiledWheelUniform(choices, w, m, FullTurn / m as real);
    AtMostHalfTurn(m, FullTurn / m as real);
    forall j | 0 <= j < m && SliceContainsZeroDegree(w[j], rotation)
      ensures MatchesAt(w[j], Wrap(rotation))
    {
      MatchIsContainment(w[j], rotation);
    }
  }

  /** The obligations of `verifyResult` hold for every list of texts and
      every rotation: on a non-empty wheel the index is in range and the
      slice it names contains the indicator. */
  lemma VerifyResultHolds(texts: seq<string>, rotation: real)
    requires |texts| > 0
    ensures var s := PrepareWheelSlices(texts);
            var p := GetSliceAtIndicator(s, rotation);
            0 <= p.index < |s| && SliceContainsZeroDegree(s[p.index], rotation)
  {
    var choices := seq(|texts|, i requires 0 <= i < |texts| => CreateChoice(texts[i]));
    assert PrepareWheelSlices(texts) == CalculateWheelSlices(choices);
    WheelWinner(choices, rotation);
  }

  /** The winner's text is the trimmed text it was entered as. */
  lemma WinnerTextIsTrimmed(texts: seq<string>, rotation: real)
    requires |texts| > 0
    ensures var p := GetSliceAtIndicator(PrepareWheelSlices(texts), rotation);
            0 <= p.index && p.text == Trim(texts[p.index % |texts|])
  {
    var choices := seq(|texts|, i requires 0 <= i < |texts| => CreateChoice(texts[i]));
    assert PrepareWheelSlices(texts) == CalculateWheelSlices(choices);
    WheelWinner(choices, rotation);
  }

  /** With no texts there is no wheel and no winner. */
  lemma EmptyWheelHasNoWinner(rotation: real)
    ensures GetSliceAtIndicator(PrepareWheelSlices([]), rotation) == Pick("", -1)
  {
  }

  /** The two-choice wheel turned by 90 degrees: the first slice's rotated
      arc is [270, 360), which ends exactly on the indicator and so does not
      hold it; the second slice, starting at 0, wins. */
  lemma TwoChoicesAtQuarterTurn(x: string, y: string)
    ensures GetSliceAtIndicator(CalculateWheelSlices([Choice(x), Choice(y)]), 90.0) == Pick(y, 1)
  {
    Layout.TwoChoiceWheel(x, y);
    QuarterWheelAtQuarterTurn(CalculateWheelSlices([Choice(x), Choice(y)]));
  }

  /** Any wheel that starts with two quarter slices at 0 and 90 degrees,
      turned by 90 degrees, resolves to its second slice. */
  lemma QuarterWheelAtQuarterTurn(r: seq<Slice>)
    requires |r| >= 2
    requires r[0].rotate == 0.0 && r[0].sliceAngle == 90.0
    requires r[1].rotate == 90.0 && r[1].sliceAngle == 90.0
    ensures GetSliceAtIndicator(r, 90.0) == Pick(r[1].text, 1)
  {
    assert Rem360(0.0 - 90.0) == -90.0;
    assert RotatedStart(r[0], 90.0) == 270.0;
    assert Rem360(270.0 + 90.0) == 0.0;
    assert !MatchesAt(r[0], 90.0);
    assert RotatedStart(r[1], 90.0) == 0.0;
    assert MatchesAt(r[1], 90.0);
    assert FirstMatch(r, 90.0, 0) == 1;
  }
}
